=== FILE: README.md ===
# Clinic appointment bot: the store and the booking dialogue

This project models the core of a Telegram bot that books a patient in with a doctor. The bot has two
parts that hold its logic.

- **The store (`Database`).** It holds a catalog of departments and doctors, the working hours and the
  lunch break as `"HH:MM"` strings, and an append-only list of appointments. The queries model
  `get_departments`, `get_doctors_by_department`, `get_doctor`, `get_available_times` and
  `get_user_appointments`. The one write is `add_appointment`, which assigns the id
  `len(appointments) + 1`.
- **The conversation.** It runs through the states `SELECT_DEPARTMENT`, `SELECT_DOCTOR`, `SELECT_DATE`,
  `SELECT_TIME`, `ENTER_NAME`, `ENTER_PHONE` and `CONFIRM`.
  - Each handler, from `start_record` to `confirm_appointment`, is a pure function. It maps the store, the
    per-user `user_data` and the incoming button payload or text to the next state, the new `user_data`,
    the new store and a summary of the reply.
  - `Booking.Step` plays the role of the `ConversationHandler` wiring. It decides which handler an update
    reaches, handles `/cancel`, and ignores updates that no handler of the current state accepts.

The files:

- `wrappers.dfy`: `Option`.
- `text.dfy`: the Python string operations the code relies on: `str(n)`, `f"{n:02d}"`, `int(s)`,
  `s.split(c)[0]`, `s.split(c)[1]`, `s.split()`, `replace` and `isdigit`.
- `calendar.dfy`: day numbers, `weekday()` and the window of fourteen days.
- `ordering.dfy`: Python's string order, and the stable `sorted` built on it.
- `seqs.dfy`: order-preserving filtering, expressed as the subsequence relation.
- `slots.dfy`: the half-hour slot grid and its `"HH:MM"` labels.
- `database.dfy`: the store, its queries and the commit.
- `database_facts.dfy`: properties that relate several store operations, and the default store.
- `booking.dfy`: the states, the session, the handlers and `Step`.
- `booking_properties.dfy`: properties of whole steps and runs.
  - The session invariant.
  - What a confirmation commits.
  - What each inline button carries.
  - Many users sharing one store.

Three modelling conventions apply throughout:

- **A handler that raises.** When Python would raise (`KeyError`, `IndexError`, `ValueError`, or
  `TypeError` on a missing doctor), the handler's reply is `HandlerFailed`. The conversation state stays
  where it was, because the framework only changes state on a returned value. Any `user_data` write made
  before the raise is kept.
- **Dates.** Dates in the session and in appointments are the strings carried by the date buttons. The
  date window is computed on day numbers: day 0 is 1970-01-01, a Thursday.
- **Clock readings.** `today` and the `created_at` stamp are parameters.

## Model

| member | source | states |
|---|---|---|
| Database.DoctorsByDepartment | ProgectTG-bot1.py:67-68 | A doctor is in the result exactly when it is in the catalog with that department id. Each such record appears as often as in the catalog, and the result keeps catalog order (it is a subsequence of the catalog). |
| Database.GetDoctor | ProgectTG-bot1.py:70-74 | None exactly when no catalog doctor has the id; otherwise a doctor with that id that sits at some catalog position with no earlier doctor of that id (the first match). |
| DatabaseFacts.WorkingDayOfLabels | ProgectTG-bot1.py:79-82 | When the four hour strings are `"HH:MM"` labels of slots, `int(s.split(":")[0])` reads each back, and the working day is exactly those slots' hours. |
| Database.BookedTimes | ProgectTG-bot1.py:91-96 | A time is in the booked list exactly when some appointment has that doctor, that date and that time. |
| Database.Unbooked | ProgectTG-bot1.py:98-99 | A label survives exactly when it is in the grid and not booked, and the survivors keep grid order. |
| Database.AvailableTimes | ProgectTG-bot1.py:76-99 | Defined exactly when the hours parse; then a time is offered exactly when it is a grid label that no appointment of this doctor and date holds, in grid order. |
| Database.AddAppointment | ProgectTG-bot1.py:101-114 | Appends exactly one record: its id is the old length + 1 and its fields are the arguments. Earlier records, the catalog and the hours are unchanged. Afterwards the time counts as booked and is no longer offered for that doctor and date. |
| Database.UserAppointments | ProgectTG-bot1.py:116-117 | An appointment is in the result exactly when it is in the store with that user id, in booking order. |
| Slots.GridMembers | ProgectTG-bot1.py:84-89 | A slot is in the grid exactly when its hour is in `[start, end)` and outside `[breakStart, breakEnd)`, and its minute is 0 or 30. |
| Slots.GridAscending | ProgectTG-bot1.py:84-89 | The grid lists its slots in strictly ascending time of day. |
| Slots.GridLabelMembers | ProgectTG-bot1.py:84-89 | A string is a grid label exactly when it is the `"HH:MM"` label of a slot of the working day. |
| Slots.GridLabelsDistinct | ProgectTG-bot1.py:84-89 | No label occurs twice in the grid. |
| Slots.LabelInjective | ProgectTG-bot1.py:89 | Different slots get different `f"{hour:02d}:{minute:02d}"` labels. |
| Slots.LeadingHourOfLabel | ProgectTG-bot1.py:79-82 | Reading the hour back from a label with `int(t.split(":")[0])` gives the slot's hour. |
| Slots.NoLabelInBreak | ProgectTG-bot1.py:87 | No grid label reads back as an hour inside the break. |
| Slots.DefaultGrid | ProgectTG-bot1.py:84-89 | For hours 9 to 18 with the break from 13 to 14 the grid has sixteen labels, and neither "13:00" nor "13:30" is among them. |
| DatabaseFacts.DefaultWorkingDay | ProgectTG-bot1.py:55-56 | The default hour strings "09:00", "18:00", "13:00" and "14:00" parse to the working day 9-18 with the break 13-14. |
| DatabaseFacts.DefaultStore | ProgectTG-bot1.py:39-57 | In the default store every doctor has all sixteen slots free on every date, and 13:00 and 13:30 are never offered. |
| DatabaseFacts.DefaultDepartmentWithoutDoctors | ProgectTG-bot1.py:40-53 | In the default catalog the fifth department has no doctor. |
| DatabaseFacts.AvailableAfterAdd | ProgectTG-bot1.py:92-99 | After a commit the free times of that doctor and date are the old ones minus exactly the booked time; every other doctor and date keeps the same free times. |
| DatabaseFacts.AddFreeTimeKeepsNoDoubleBooking | ProgectTG-bot1.py:101-114 | If no record yet holds that doctor, date and time, a store without double bookings stays without them. Every time `AvailableTimes` offers is such a time. |
| DatabaseFacts.RepeatedAddDoubleBooks | ProgectTG-bot1.py:101-114 | Committing the same doctor, date and time twice stores both records. There is no conflict check. |
| DatabaseFacts.AddKeepsIdsSequential | ProgectTG-bot1.py:103 | If the ids are 1, 2, 3, ... in booking order, they stay so after a commit, and so they are pairwise distinct. |
| DatabaseFacts.AddThenUserAppointments | ProgectTG-bot1.py:116-117 | After a commit the booking user's list is their old list followed by the new record; every other user's list is unchanged. |
| DatabaseFacts.MyRecordsOrder | ProgectTG-bot1.py:466 | `my_records` shows a permutation of the user's appointments, sorted by `date + " " + time`, with records of equal key kept in booking order. |
| DatabaseFacts.BookingScenarioFirst | ProgectTG-bot1.py:101-114 | On the default store, booking doctor 2 at 10:00 gives record id 1. Before, 10:00 is offered; afterwards it is not, and fifteen free times remain for that doctor and date. |
| DatabaseFacts.BookingScenarioSecond | ProgectTG-bot1.py:101-114 | A second user committing the same doctor, date and 10:00 gets id 2, and the store then holds a double booking. |
| Ordering.StrLessTotal | ProgectTG-bot1.py:466 | Python's string `<` orders any two different strings one way or the other. |
| Ordering.StrLessTransitive | ProgectTG-bot1.py:466 | Python's string `<` is transitive. |
| Ordering.SortBySorted | ProgectTG-bot1.py:466 | `sorted(xs, key=...)` returns its elements in non-decreasing key order. |
| Ordering.SortByPermutes | ProgectTG-bot1.py:466 | `sorted(xs, key=...)` returns a rearrangement of its input (same multiset). |
| Ordering.SortByStable | ProgectTG-bot1.py:466 | `sorted` is stable: the elements with any one key appear in their input order. |
| Text.TwoWordsIff | ProgectTG-bot1.py:346 | `len(name.split()) >= 2` holds exactly when the name has a whitespace character with a non-space character before it and one after it. |
| Text.StripCharacterised | ProgectTG-bot1.py:364 | After deleting every `+` and space, the rest is all digits exactly when the text holds only digits, `+` and spaces, and then its length is the number of digits. |
| Text.IntRoundTrip | ProgectTG-bot1.py:161-178 | `int(str(i)) == i` for every integer, negative ones included. |
| Calendar.DateWindowShape | ProgectTG-bot1.py:226-229 | The window always holds exactly ten days, strictly ascending. A day is in it exactly when it is one of the next fourteen days and falls Monday to Friday. |
| Booking.PhoneAcceptedIff | ProgectTG-bot1.py:364 | The phone check accepts a text exactly when it is made of digits, `+` and spaces only and holds at least ten digits. |
| Booking.HandleDepartment | ProgectTG-bot1.py:174-200 | The department id from `dept_N` is stored whenever it parses. The dialogue moves to the doctors exactly when the department has doctors, offering exactly them; a department with no doctors stays at `SELECT_DEPARTMENT`. |
| Booking.HandleDoctor | ProgectTG-bot1.py:204-246 | `back_to_dept` returns to the departments with the session untouched. Otherwise it moves to the dates exactly when the id parses and names a catalog doctor, and then offers ten dates. A parsed id is stored even when no doctor has it and the handler fails; an id that does not parse leaves the session unchanged. |
| Booking.HandleDate | ProgectTG-bot1.py:250-300 | `back_to_doctors` returns to the doctors of the stored department with the session untouched. Otherwise it stores the date whenever the payload holds a `_`, and leaves the session unchanged when it does not. With a stored doctor and parsable hours it moves to the times exactly when some are free, and offers exactly those; with none free it stays at `SELECT_DATE`. |
| Booking.HandleTime | ProgectTG-bot1.py:304-340 | `back_to_dates` keeps the session untouched and returns to the dates whenever the stored doctor exists. Otherwise it moves on to the name exactly when the data holds a `_`. It stores `data.split("_")[1]`, the text between the first `_` and the next one (or the end). |
| Booking.HandleName | ProgectTG-bot1.py:344-357 | It moves to the phone exactly when the text has two words, and stores the text. On rejection the whole outcome is the old state, session and store. |
| Booking.HandlePhone | ProgectTG-bot1.py:361-396 | A rejection, with nothing changed, happens exactly when the phone is implausible. An accepted phone is stored. It moves to `CONFIRM` exactly when the other fields are present and the doctor exists, with a prompt that repeats them. |
| Booking.HandleConfirm | ProgectTG-bot1.py:400-443 | `confirm_no` ends without writing. With a field missing, any other data fails with nothing written. With all five fields present it appends the record with the next id. It ends exactly on `confirm_no`, or when all fields are present and the doctor exists, with that record and the doctor in the reply. Otherwise it fails and stays at `CONFIRM`, even after the record has been written. |
| Booking.Step | ProgectTG-bot1.py:497-512 | No update changes the catalog or the hours. The appointments are either unchanged, or, only in `CONFIRM`, extended by exactly one record at the end. |
| BookingProperties.StepPreservesWellFormed | ProgectTG-bot1.py:151-443 | Every update keeps the session invariant. Each state has all earlier choices present, a catalog doctor, a two-word name and a plausible phone. |
| BookingProperties.RecordRequestStartsAfresh | ProgectTG-bot1.py:151-170 | Outside a dialogue, `/record` or the keyboard button clears whatever `user_data` was left and offers every department. |
| BookingProperties.CancelEndsWithoutWriting | ProgectTG-bot1.py:483-485 | `/cancel` in any active state ends the dialogue and writes nothing. |
| BookingProperties.WrongKindOfInputIgnored | ProgectTG-bot1.py:502-510 | Text or a command while a button is expected, and a button or a command while text is expected, change nothing. |
| BookingProperties.ConfirmCommitsSession | ProgectTG-bot1.py:409-416 | Under the invariant, confirming ends the dialogue and appends exactly the record built from the session: next id, this user, the stored doctor, date, time, name and phone. |
| BookingProperties.ConfirmNoWritesNothing | ProgectTG-bot1.py:404-406 | `confirm_no` ends the dialogue with the store and the session unchanged. |
| BookingProperties.ConfirmFreeTimeKeepsNoDoubleBooking | ProgectTG-bot1.py:409-416 | If no record holds the chosen doctor, date and time at confirmation, the store stays free of double bookings. |
| BookingProperties.ConfirmTakenTimeDoubleBooks | ProgectTG-bot1.py:409-416 | Suppose someone else booked the chosen time after it was offered. Confirming then creates a double booking. |
| BookingProperties.IdButtonRoundTrip | ProgectTG-bot1.py:178 | `int(f"{prefix}_{id}".split("_")[1]) == id` for any underscore-free prefix and any integer id. |
| BookingProperties.PressDepartmentButton | ProgectTG-bot1.py:161-186 | Pressing a department's button stores that department. It moves to the doctors exactly when the department has some, and otherwise stays. |
| BookingProperties.PressDoctorButton | ProgectTG-bot1.py:190 | Pressing the button of a listed doctor stores that doctor and offers that doctor with the ten dates of the window. |
| BookingProperties.PressDateButton | ProgectTG-bot1.py:233 | Pressing a date button stores the date. The time menu appears exactly when that doctor has free times that day, listing them all. |
| BookingProperties.PressTimeButton | ProgectTG-bot1.py:287 | Pressing the button of any grid time stores exactly that time and asks for the name. Every offered time is a grid time, by the contracts of `Database.AvailableTimes` and `Slots.GridLabelMembers`. |
| BookingProperties.BackThenOtherDoctorKeepsDateAndTime | ProgectTG-bot1.py:308-330 | Going back from the times to the doctors and choosing another doctor keeps the earlier date and time in the session. |
| BookingProperties.Deliver | ProgectTG-bot1.py:497-512 | An update to one user leaves every other user's conversation alone, keeps the departments and doctors, and only appends to the store, at most one record. |
| BookingProperties.DeliverPreservesWellFormed | ProgectTG-bot1.py:497-512 | One update keeps two invariants: every user's session invariant, and that every stored record names a catalog doctor, a two-word name and a plausible phone. |
| BookingProperties.RunAllInvariant | ProgectTG-bot1.py:497-512 | Over any interleaving of updates from any users the invariants hold. The doctors are unchanged, and the store keeps its old records as a prefix, growing by at most one record per update. |
| BookingProperties.FreshBotWellFormed | ProgectTG-bot1.py:39-57 | A fresh bot on the default store satisfies the invariants. |

## Left out

- Telegram transport and layout are not modelled. This covers `Update`, the inline keyboards (including the three-per-row time grid), the message texts, `start`, `show_departments` and the reply keyboard. A reply is summarised by the choices it offers.
- JSON persistence (`load_data`, `save_data`) is file I/O. The store is an in-memory value, and `DefaultDb` is the store written when no file exists.
- Clock readings are parameters. `datetime.now().date()` is the day number `today`, and `datetime.now().isoformat()` is the opaque string `now`.
- The reminder job (`job_queue.run_once`, `send_reminder`) is asynchronous scheduling and a network send, and is not modelled.
- `strftime` and `strptime` are not modelled.
  - The date window is computed on day numbers, so the `YYYY-MM-DD` text of a date button is not derived from the day; `PressDateButton` takes that text as given.
- Booking.HandlePhone: the `strptime` call at line 372 of `ProgectTG-bot1.py` is assumed to succeed on the stored date.
- Booking.HandleConfirm: the `strptime` calls at lines 419 and 438 are assumed to succeed on the stored date.
- Database.MyRecords: `my_records` looks up each record's doctor and formats its date (lines 467-471). The model assumes the `strptime` succeeds and the doctor exists, so that `doctor['name']` does not raise, and it models only the sorted list.
- Logging is not modelled.
- Database.WorkingDayOf: hour strings are read as unsigned. Python's `int()` also accepts a sign, so `"+9:00"` reads as 9 and `"-1:00"` as -1, but here both are None (a failed parse). The working day holds natural hours only. The default store writes its hours as `"HH:MM"` labels, and such labels parse back exactly (`DatabaseFacts.WorkingDayOfLabels`).
- BookingProperties.Deliver: conversations are keyed by user only, which models one private chat per user (chat id equals user id). The framework keys a conversation by chat and user by default, while `user_data` is shared per user. So a user in two chats would have two conversations over one `user_data`. A `/record` in one chat clears it, and a later `confirm_yes` in the other then raises `KeyError` without writing. `BotWellFormed`, `RunAllInvariant` and `ConfirmCommitsSession` do not cover that case.
- Python's Unicode rules for `isdigit`, `split()` and `int()` are narrowed to ASCII digits and ASCII whitespace. `int()` accepting surrounding whitespace and `_` separators is not modelled. A payload such as `dept_ 5` parses in Python but is `HandlerFailed` here, and no button of the bot sends one.
- `my_records` without appointments, and its message text, are not modelled. What is modelled is the list it shows, `Database.MyRecords`.
- Where the code and the bot's intended behaviour differ, the model follows the code:
  - `add_appointment` does not re-check availability. The only no-double-booking result is conditional on no record holding that time yet (`DatabaseFacts.AddFreeTimeKeepsNoDoubleBooking`).
  - The back buttons do not clear later fields of `user_data`. Only `start_record` clears it.
  - `select_time` stores whatever follows the `_`.
  - `select_date` does not check that the date is in the window.

=== FILE: booking.dfy ===
/** The booking conversation: the states of the `ConversationHandler`, the
    per-user `user_data`, and one function per handler, from `start_record`
    to `confirm_appointment`. Telegram updates arrive as `Input`s; what the bot
    sends back is summarised as a `Reply` naming the choices it offers. */
module Booking {
  import opened Wrappers
  import opened Text
  import opened Calendar
  import opened Database

  /** `SELECT_DEPARTMENT` ... `CONFIRM`, and `End` for `ConversationHandler.END`
      (no dialogue in progress). */
  datatype State =
    | SelectDepartment
    | SelectDoctor
    | SelectDate
    | SelectTime
    | EnterName
    | EnterPhone
    | Confirm
    | End

  /** `context.user_data`: the choices made so far; None is a missing key. */
  datatype Session = Session(
    departmentId: Option<int>,
    doctorId: Option<int>,
    date: Option<string>,
    time: Option<string>,
    patientName: Option<string>,
    phone: Option<string>)

  const EmptySession: Session := Session(None, None, None, None, None, None)

  /** An update from the user: a pressed inline button (its callback data), a plain
      text message, or a `/command` (its name without the slash). */
  datatype Input =
    | Callback(data: string)
    | Message(text: string)
    | Command(name: string)

  /** What the bot answers, without layout or wording. */
  datatype Reply =
    | Ignored                                    // no handler of the conversation takes the update
    | HandlerFailed                              // the handler raised; the conversation state is kept
    | DepartmentMenu(departments: seq<Department>)
    | NoDoctors
    | DoctorMenu(doctors: seq<Doctor>)
    | DateMenu(doctor: Doctor, days: seq<int>)
    | NoFreeTime
    | TimeMenu(times: seq<string>)
    | AskName
    | NameRejected
    | AskPhone
    | PhoneRejected
    | ConfirmPrompt(doctor: Doctor, date: string, time: string, patientName: string, phone: string)
    | BookingCancelled
    | Booked(appointment: Appointment, doctor: Doctor)
    | ActionCancelled

  /** The conversation state, the session and the store after one update, and the reply. */
  datatype Outcome = Outcome(state: State, session: Session, db: Db, reply: Reply)

  const RecordButtonText: string := "📅 Записаться на прием"
  const BackToDepartments: string := "back_to_dept"
  const BackToDoctors: string := "back_to_doctors"
  const BackToDates: string := "back_to_dates"
  const ConfirmYes: string := "confirm_yes"
  const ConfirmNo: string := "confirm_no"

  /** The entry points: `/record`, or the keyboard text matched by `^(📅 Записаться на прием)$`
      (Python's `$` also matches before one final newline). */
  predicate IsRecordRequest(input: Input) {
    || input == Command("record")
    || input == Message(RecordButtonText)
    || input == Message(RecordButtonText + "\n")
  }

  /** `int(data.split("_")[1])`; None where Python raises. */
  function CallbackId(data: string): Option<int> {
    match Second(data, '_')
    case None => None
    case Some(p) => ParseInt(p)
  }

  /** The phone check of `enter_phone`: with every `+` and space deleted, the rest is a
      non-empty string of digits (`isdigit`) of length at least 10. */
  predicate PhoneAccepted(text: string) {
    var digits := StripPlusAndSpace(text);
    |digits| > 0 && AllDigits(digits) && |digits| >= 10
  }

  /** The same check stated on the text itself: only digits, `+` and spaces, and ten digits or more. */
  predicate PlausiblePhone(text: string) {
    PhoneAlphabet(text) && DigitCount(text) >= 10
  }

  lemma PhoneAcceptedIff(text: string)
    ensures PhoneAccepted(text) <==> PlausiblePhone(text)
  {
    StripCharacterised(text);
  }

  /** `start_record`: clear `user_data` and offer every department. */
  function StartRecord(db: Db): (o: Outcome)
    ensures o.state == SelectDepartment && o.session == EmptySession && o.db == db
    ensures o.reply == DepartmentMenu(db.departments)
  {
    Outcome(SelectDepartment, EmptySession, db, DepartmentMenu(db.departments))
  }

  /** `select_department`: store the department; offer its doctors, or stay when it has none. */
  function HandleDepartment(db: Db, ss: Session, data: string): (o: Outcome)
    ensures o.db == db
    ensures o.state == SelectDoctor <==>
      CallbackId(data).Some? && |DoctorsByDepartment(db, CallbackId(data).value)| > 0
    ensures o.state != SelectDoctor ==> o.state == SelectDepartment
    ensures CallbackId(data).None? ==> o.session == ss
    ensures CallbackId(data).Some? ==> o.session == ss.(departmentId := CallbackId(data))
    ensures o.state == SelectDoctor ==> o.reply == DoctorMenu(DoctorsByDepartment(db, CallbackId(data).value))
  {
    match CallbackId(data)
    case None => Outcome(SelectDepartment, ss, db, HandlerFailed)
    case Some(id) =>
      var ss' := ss.(departmentId := Some(id));
      var doctors := DoctorsByDepartment(db, id);
      if |doctors| == 0 then Outcome(SelectDepartment, ss', db, NoDoctors)
      else Outcome(SelectDoctor, ss', db, DoctorMenu(doctors))
  }

  /** `select_doctor`: back to the departments, or store the doctor and offer the date window. */
  function HandleDoctor(db: Db, today: int, ss: Session, data: string): (o: Outcome)
    ensures o.db == db
    ensures data == BackToDepartments ==> o == Outcome(SelectDepartment, ss, db, DepartmentMenu(db.departments))
    ensures o.state == SelectDate <==>
      data != BackToDepartments && CallbackId(data).Some? && GetDoctor(db, CallbackId(data).value).Some?
    ensures o.state == SelectDate ==>
      && o.session == ss.(doctorId := CallbackId(data))
      && o.reply.DateMenu? && |o.reply.days| == 10 && o.reply.doctor.id == CallbackId(data).value
    ensures o.state != SelectDate && data != BackToDepartments ==> o.state == SelectDoctor
    ensures data != BackToDepartments && CallbackId(data).None? ==> o.session == ss
    ensures data != BackToDepartments && CallbackId(data).Some? ==> o.session == ss.(doctorId := CallbackId(data))
  {
    if data == BackToDepartments then Outcome(SelectDepartment, ss, db, DepartmentMenu(db.departments))
    else
      match CallbackId(data)
      case None => Outcome(SelectDoctor, ss, db, HandlerFailed)
      case Some(id) =>
        var ss' := ss.(doctorId := Some(id));
        match GetDoctor(db, id)
        case None => Outcome(SelectDoctor, ss', db, HandlerFailed)
        case Some(doctor) =>
          DateWindowShape(today);
          Outcome(SelectDate, ss', db, DateMenu(doctor, DateWindow(today)))
  }

  /** The doctors `select_date` lists when going back: `get_doctors_by_department(user_data.get("department_id"))`,
      which matches no doctor when the key is missing. */
  function DoctorsOfSession(db: Db, ss: Session): seq<Doctor> {
    match ss.departmentId
    case None => []
    case Some(d) => DoctorsByDepartment(db, d)
  }

  /** `select_date`: back to the doctors, or store the date and offer its free times,
      staying when there are none. */
  function HandleDate(db: Db, ss: Session, data: string): (o: Outcome)
    ensures o.db == db
    ensures data == BackToDoctors ==> o == Outcome(SelectDoctor, ss, db, DoctorMenu(DoctorsOfSession(db, ss)))
    ensures data != BackToDoctors ==> o.state in {SelectDate, SelectTime}
    ensures data != BackToDoctors && Second(data, '_').Some? ==> o.session == ss.(date := Second(data, '_'))
    ensures data != BackToDoctors && Second(data, '_').None? ==> o.session == ss
    ensures o.state == SelectTime ==>
      && data != BackToDoctors && ss.doctorId.Some? && Second(data, '_').Some?
      && var times := AvailableTimes(db, ss.doctorId.value, Second(data, '_').value);
         times.Some? && |times.value| > 0 && o.reply == TimeMenu(times.value)
    ensures
      && data != BackToDoctors && ss.doctorId.Some? && Second(data, '_').Some?
      && AvailableTimes(db, ss.doctorId.value, Second(data, '_').value) == Some([])
      ==> o.state == SelectDate
    ensures
      && data != BackToDoctors && ss.doctorId.Some? && Second(data, '_').Some?
      && AvailableTimes(db, ss.doctorId.value, Second(data, '_').value).Some?
      && |AvailableTimes(db, ss.doctorId.value, Second(data, '_').value).value| > 0
      ==> o.state == SelectTime
  {
    if data == BackToDoctors then Outcome(SelectDoctor, ss, db, DoctorMenu(DoctorsOfSession(db, ss)))
    else
      match Second(data, '_')
      case None => Outcome(SelectDate, ss, db, HandlerFailed)
      case Some(date) =>
        var ss' := ss.(date := Some(date));
        match ss.doctorId
        case None => Outcome(SelectDate, ss', db, HandlerFailed)
        case Some(doctorId) =>
          match AvailableTimes(db, doctorId, date)
          case None => Outcome(SelectDate, ss', db, HandlerFailed)
          case Some(times) =>
            if |times| == 0 then Outcome(SelectDate, ss', db, NoFreeTime)
            else Outcome(SelectTime, ss', db, TimeMenu(times))
  }

  /** `select_time`: back to the date window, or store the time as given. The time is not
      checked against the free times. */
  function HandleTime(db: Db, today: int, ss: Session, data: string): (o: Outcome)
    ensures o.db == db
    ensures data == BackToDates ==> o.session == ss
    ensures data == BackToDates ==> o.state in {SelectDate, SelectTime}
    ensures data == BackToDates && ss.doctorId.Some? && GetDoctor(db, ss.doctorId.value).Some? ==> o.state == SelectDate
    ensures data == BackToDates && o.state == SelectDate ==>
      ss.doctorId.Some? && GetDoctor(db, ss.doctorId.value).Some? && o.reply == DateMenu(GetDoctor(db, ss.doctorId.value).value, DateWindow(today))
    ensures data != BackToDates ==> (o.state == EnterName <==> '_' in data)
    ensures data != BackToDates && o.state == EnterName ==> o.session == ss.(time := Second(data, '_'))
    ensures data != BackToDates && o.state != EnterName ==> o.state == SelectTime && o.session == ss
  {
    if data == BackToDates then
      match ss.doctorId
      case None => Outcome(SelectTime, ss, db, HandlerFailed)
      case Some(id) =>
        match GetDoctor(db, id)
        case None => Outcome(SelectTime, ss, db, HandlerFailed)
        case Some(doctor) => Outcome(SelectDate, ss, db, DateMenu(doctor, DateWindow(today)))
    else
      match Second(data, '_')
      case None => Outcome(SelectTime, ss, db, HandlerFailed)
      case Some(time) => Outcome(EnterName, ss.(time := Some(time)), db, AskName)
  }

  /** `enter_name`: accept a name of at least two words. */
  function HandleName(db: Db, ss: Session, text: string): (o: Outcome)
    ensures o.db == db
    ensures o.state == EnterPhone <==> HasTwoWords(text)
    ensures o.state == EnterPhone ==> o.session == ss.(patientName := Some(text))
    ensures o.state != EnterPhone ==> o == Outcome(EnterName, ss, db, NameRejected)
  {
    TwoWordsIff(text);
    if |Words(text)| < 2 then Outcome(EnterName, ss, db, NameRejected)
    else Outcome(EnterPhone, ss.(patientName := Some(text)), db, AskPhone)
  }

  /** `enter_phone`: accept a plausible phone number (kept as typed) and ask for confirmation. */
  function HandlePhone(db: Db, ss: Session, text: string): (o: Outcome)
    ensures o.db == db
    ensures !PlausiblePhone(text) <==> o == Outcome(EnterPhone, ss, db, PhoneRejected)
    ensures PlausiblePhone(text) ==> o.session == ss.(phone := Some(text))
    ensures o.state == Confirm <==>
      && PlausiblePhone(text) && ss.doctorId.Some? && ss.date.Some? && ss.time.Some? && ss.patientName.Some?
      && GetDoctor(db, ss.doctorId.value).Some?
    ensures o.state != Confirm ==> o.state == EnterPhone
    ensures o.state == Confirm ==>
      o.reply == ConfirmPrompt(GetDoctor(db, ss.doctorId.value).value, ss.date.value, ss.time.value, ss.patientName.value, text)
  {
    PhoneAcceptedIff(text);
    if !PhoneAccepted(text) then Outcome(EnterPhone, ss, db, PhoneRejected)
    else
      var ss' := ss.(phone := Some(text));
      match (ss.doctorId, ss.date, ss.time, ss.patientName)
      case (Some(doctorId), Some(date), Some(time), Some(name)) =>
        (match GetDoctor(db, doctorId)
         case None => Outcome(EnterPhone, ss', db, HandlerFailed)
         case Some(doctor) => Outcome(Confirm, ss', db, ConfirmPrompt(doctor, date, time, name, text)))
      case _ => Outcome(EnterPhone, ss', db, HandlerFailed)
  }

  /** All five fields `add_appointment` reads from the session are present. */
  predicate ReadyToCommit(ss: Session) {
    ss.doctorId.Some? && ss.date.Some? && ss.time.Some? && ss.patientName.Some? && ss.phone.Some?
  }

  /** The store and the record `add_appointment` produces from the session's fields. */
  function CommitSession(db: Db, user: int, now: string, ss: Session): (Db, Appointment)
    requires ReadyToCommit(ss)
  {
    AddAppointment(db, user, ss.doctorId.value, ss.date.value, ss.time.value, ss.patientName.value, ss.phone.value, now)
  }

  /** `confirm_appointment`: `confirm_no` ends without booking; any other button books. */
  function HandleConfirm(db: Db, user: int, now: string, ss: Session, data: string): (o: Outcome)
    ensures o.session == ss
    ensures data == ConfirmNo ==> o == Outcome(End, ss, db, BookingCancelled)
    ensures data != ConfirmNo && !ReadyToCommit(ss) ==> o == Outcome(Confirm, ss, db, HandlerFailed)
    ensures data != ConfirmNo && ReadyToCommit(ss) ==>
      && o.db == CommitSession(db, user, now, ss).0
      && |o.db.appointments| == |db.appointments| + 1
      && o.db.appointments[|db.appointments|].id == |db.appointments| + 1
    ensures data != ConfirmNo && ReadyToCommit(ss) && GetDoctor(db, ss.doctorId.value).Some? ==>
      o.state == End && o.reply == Booked(CommitSession(db, user, now, ss).1, GetDoctor(db, ss.doctorId.value).value)
    ensures o.state == End <==> data == ConfirmNo || (ReadyToCommit(ss) && GetDoctor(db, ss.doctorId.value).Some?)
    ensures o.state != End ==> o.state == Confirm && o.reply == HandlerFailed
  {
    if data == ConfirmNo then Outcome(End, ss, db, BookingCancelled)
    else if !ReadyToCommit(ss) then Outcome(Confirm, ss, db, HandlerFailed)
    else
      var (db', a) := CommitSession(db, user, now, ss);
      match GetDoctor(db', ss.doctorId.value)
      case None => Outcome(Confirm, ss, db', HandlerFailed)
      case Some(doctor) => Outcome(End, ss, db', Booked(a, doctor))
  }

  /** One update delivered to one user's conversation. `today` is the day number of
      `datetime.now().date()` and `now` the text of `datetime.now().isoformat()`. */
  function Step(db: Db, today: int, user: int, now: string, state: State, ss: Session, input: Input): (o: Outcome)
    ensures o.db.departments == db.departments && o.db.doctors == db.doctors
    ensures o.db.workingHours == db.workingHours && o.db.breakHours == db.breakHours
    ensures o.db.appointments == db.appointments
      || (state == Confirm && |o.db.appointments| == |db.appointments| + 1
          && o.db.appointments[..|db.appointments|] == db.appointments)
  {
    if state == End then
      if IsRecordRequest(input) then StartRecord(db) else Outcome(End, ss, db, Ignored)
    else if input == Command("cancel") then
      Outcome(End, ss, db, ActionCancelled)
    else
      match (state, input)
      case (SelectDepartment, Callback(data)) => HandleDepartment(db, ss, data)
      case (SelectDoctor, Callback(data)) => HandleDoctor(db, today, ss, data)
      case (SelectDate, Callback(data)) => HandleDate(db, ss, data)
      case (SelectTime, Callback(data)) => HandleTime(db, today, ss, data)
      case (EnterName, Message(text)) => HandleName(db, ss, text)
      case (EnterPhone, Message(text)) => HandlePhone(db, ss, text)
      case (Confirm, Callback(data)) => HandleConfirm(db, user, now, ss, data)
      case _ => Outcome(state, ss, db, Ignored)
  }
}

=== FILE: booking_properties.dfy ===
/** Properties of the booking conversation over whole steps and runs: the
    session invariant the handlers keep, what a confirmation commits, what the
    inline buttons carry, and how several users share one store. */
module BookingProperties {
  import opened Wrappers
  import opened Text
  import opened Calendar
  import opened Slots
  import opened Database
  import opened DatabaseFacts
  import opened Booking

  /** How far along the dialogue a state is; `End` counts as the start. */
  function Rank(state: State): nat {
    match state
    case End => 0
    case SelectDepartment => 0
    case SelectDoctor => 1
    case SelectDate => 2
    case SelectTime => 3
    case EnterName => 4
    case EnterPhone => 5
    case Confirm => 6
  }

  /** What `user_data` holds once a state has been reached through the handlers: every
      earlier choice, the doctor a catalog doctor, the name and the phone as validated. */
  predicate WellFormed(db: Db, state: State, ss: Session) {
    var r := Rank(state);
    && (r >= 1 ==> ss.departmentId.Some?)
    && (r >= 2 ==> ss.doctorId.Some? && GetDoctor(db, ss.doctorId.value).Some?)
    && (r >= 3 ==> ss.date.Some?)
    && (r >= 4 ==> ss.time.Some?)
    && (r >= 5 ==> ss.patientName.Some? && HasTwoWords(ss.patientName.value))
    && (r >= 6 ==> ss.phone.Some? && PlausiblePhone(ss.phone.value))
  }

  lemma SameDoctorsSameLookup(db: Db, db': Db, id: int)
    requires db'.doctors == db.doctors
    ensures GetDoctor(db', id) == GetDoctor(db, id)
  {
  }

  lemma DepartmentKeepsWellFormed(db: Db, ss: Session, data: string)
    requires WellFormed(db, SelectDepartment, ss)
    ensures var o := HandleDepartment(db, ss, data); WellFormed(o.db, o.state, o.session)
  {
  }

  lemma DoctorKeepsWellFormed(db: Db, today: int, ss: Session, data: string)
    requires WellFormed(db, SelectDoctor, ss)
    ensures var o := HandleDoctor(db, today, ss, data); WellFormed(o.db, o.state, o.session)
  {
  }

  lemma DateKeepsWellFormed(db: Db, ss: Session, data: string)
    requires WellFormed(db, SelectDate, ss)
    ensures var o := HandleDate(db, ss, data); WellFormed(o.db, o.state, o.session)
  {
  }

  lemma TimeKeepsWellFormed(db: Db, today: int, ss: Session, data: string)
    requires WellFormed(db, SelectTime, ss)
    ensures var o := HandleTime(db, today, ss, data); WellFormed(o.db, o.state, o.session)
  {
  }

  lemma NameKeepsWellFormed(db: Db, ss: Session, text: string)
    requires WellFormed(db, EnterName, ss)
    ensures var o := HandleName(db, ss, text); WellFormed(o.db, o.state, o.session)
  {
  }

  lemma PhoneKeepsWellFormed(db: Db, ss: Session, text: string)
    requires WellFormed(db, EnterPhone, ss)
    ensures var o := HandlePhone(db, ss, text); WellFormed(o.db, o.state, o.session)
  {
  }

  lemma ConfirmKeepsWellFormed(db: Db, user: int, now: string, ss: Session, data: string)
    requires WellFormed(db, Confirm, ss)
    ensures var o := HandleConfirm(db, user, now, ss, data); WellFormed(o.db, o.state, o.session)
  {
    var o := HandleConfirm(db, user, now, ss, data);
    SameDoctorsSameLookup(db, o.db, ss.doctorId.value);
  }

  /** Every handler keeps the invariant, whatever the update. */
  lemma StepPreservesWellFormed(db: Db, today: int, user: int, now: string, state: State, ss: Session, input: Input)
    requires WellFormed(db, state, ss)
    ensures var o := Step(db, today, user, now, state, ss, input);
      WellFormed(o.db, o.state, o.session)
  {
    if state == End || input == Command("cancel") {
    } else {
      match (state, input)
      case (SelectDepartment, Callback(data)) => DepartmentKeepsWellFormed(db, ss, data);
      case (SelectDoctor, Callback(data)) => DoctorKeepsWellFormed(db, today, ss, data);
      case (SelectDate, Callback(data)) => DateKeepsWellFormed(db, ss, data);
      case (SelectTime, Callback(data)) => TimeKeepsWellFormed(db, today, ss, data);
      case (EnterName, Message(text)) => NameKeepsWellFormed(db, ss, text);
      case (EnterPhone, Message(text)) => PhoneKeepsWellFormed(db, ss, text);
      case (Confirm, Callback(data)) => ConfirmKeepsWellFormed(db, user, now, ss, data);
      case _ =>
    }
  }

  /** Outside a dialogue, `/record` or the keyboard button starts afresh: whatever an earlier dialogue
      left in `user_data` is dropped and every department of the catalog is offered. */
  lemma RecordRequestStartsAfresh(db: Db, today: int, user: int, now: string, ss: Session, input: Input)
    requires IsRecordRequest(input)
    ensures var o := Step(db, today, user, now, End, ss, input);
      && o.state == SelectDepartment && o.session == EmptySession && o.db == db
      && o.reply == DepartmentMenu(db.departments)
      && WellFormed(o.db, o.state, o.session)
  {
  }

  /** `/cancel` ends any dialogue in progress and writes nothing; `user_data` is left as it was. */
  lemma CancelEndsWithoutWriting(db: Db, today: int, user: int, now: string, state: State, ss: Session)
    requires state != End
    ensures var o := Step(db, today, user, now, state, ss, Command("cancel"));
      o.state == End && o.db == db && o.session == ss
  {
  }

  /** A button press or a command while the dialogue waits for text, or text or a command while it
      waits for a button, matches no handler: nothing changes. */
  lemma WrongKindOfInputIgnored(db: Db, today: int, user: int, now: string, state: State, ss: Session, input: Input)
    requires state != End && input != Command("cancel")
    requires if state == EnterName || state == EnterPhone then !input.Message? else !input.Callback?
    ensures Step(db, today, user, now, state, ss, input) == Outcome(state, ss, db, Ignored)
  {
  }

  /** With the invariant in place, `confirm_yes` (indeed any button but `confirm_no`) ends the dialogue
      and appends exactly the record built from the session: a catalog doctor, a two-word name,
      a plausible phone, the next id. */
  lemma ConfirmCommitsSession(db: Db, today: int, user: int, now: string, ss: Session, data: string)
    requires WellFormed(db, Confirm, ss)
    requires data != ConfirmNo
    ensures var o := Step(db, today, user, now, Confirm, ss, Callback(data));
      && o.state == End
      && o.session == ss
      && o.db.appointments == db.appointments + [Appointment(
           |db.appointments| + 1, user, ss.doctorId.value, ss.date.value, ss.time.value,
           ss.patientName.value, ss.phone.value, now)]
      && GetDoctor(db, ss.doctorId.value).Some?
      && HasTwoWords(ss.patientName.value)
      && PlausiblePhone(ss.phone.value)
  {
    var o := Step(db, today, user, now, Confirm, ss, Callback(data));
    var r := CommitSession(db, user, now, ss);
    assert o.db == r.0;
    assert r.0.appointments == r.0.appointments[..|db.appointments|] + [r.0.appointments[|db.appointments|]];
  }

  /** `confirm_no` ends the dialogue and writes nothing. */
  lemma ConfirmNoWritesNothing(db: Db, today: int, user: int, now: string, ss: Session)
    ensures var o := Step(db, today, user, now, Confirm, ss, Callback(ConfirmNo));
      o.state == End && o.db == db && o.session == ss
  {
  }

  /** The store after a confirmation step: untouched on `confirm_no`, committed otherwise. */
  lemma ConfirmStepStore(db: Db, today: int, user: int, now: string, ss: Session, data: string)
    requires ReadyToCommit(ss)
    ensures Step(db, today, user, now, Confirm, ss, Callback(data)).db
      == if data == ConfirmNo then db else CommitSession(db, user, now, ss).0
  {
  }

  /** If no record holds the chosen doctor, date and time when the user confirms, the store stays free
      of double bookings. */
  lemma ConfirmFreeTimeKeepsNoDoubleBooking(db: Db, today: int, user: int, now: string, ss: Session, data: string)
    requires ReadyToCommit(ss)
    requires NoDoubleBooking(db.appointments)
    requires !IsBooked(db.appointments, ss.doctorId.value, ss.date.value, ss.time.value)
    ensures NoDoubleBooking(Step(db, today, user, now, Confirm, ss, Callback(data)).db.appointments)
  {
    var after := Step(db, today, user, now, Confirm, ss, Callback(data)).db;
    ConfirmStepStore(db, today, user, now, ss, data);
    if data == ConfirmNo {
      assert after == db;
    } else {
      AddFreeTimeKeepsNoDoubleBooking(db, user, ss.doctorId.value, ss.date.value, ss.time.value,
        ss.patientName.value, ss.phone.value, now);
      assert after == CommitSession(db, user, now, ss).0;
    }
  }

  /** If someone else booked the chosen time after it was offered, confirming books it a second time:
      nothing re-checks availability at commit. */
  lemma ConfirmTakenTimeDoubleBooks(db: Db, today: int, user: int, now: string, ss: Session)
    requires WellFormed(db, Confirm, ss)
    requires IsBooked(db.appointments, ss.doctorId.value, ss.date.value, ss.time.value)
    ensures !NoDoubleBooking(Step(db, today, user, now, Confirm, ss, Callback(ConfirmYes)).db.appointments)
  {
    var o := Step(db, today, user, now, Confirm, ss, Callback(ConfirmYes));
    var n := |db.appointments|;
    var k :| 0 <= k < n && db.appointments[k].doctorId == ss.doctorId.value
      && db.appointments[k].date == ss.date.value && db.appointments[k].time == ss.time.value;
    assert o.db.appointments[k] == db.appointments[k];
    assert o.db.appointments[n].time == ss.time.value;
  }

  // ---------------------------------------------------------------------------
  // What the inline buttons carry

  /** `f"dept_{dept['id']}"`, `f"doc_{doc['id']}"`, `f"time_{time}"` and the date button's data
      for an already formatted date. */
  function DepartmentButton(d: Department): string { "dept" + "_" + IntToString(d.id) }
  function DoctorButton(d: Doctor): string { "doc" + "_" + IntToString(d.id) }
  function TimeButton(time: string): string { "time" + "_" + time }
  function DateButton(date: string): string { "date" + "_" + date }

  /** The payload of a button is what the handler reads back with `data.split("_")[1]`. */
  lemma ButtonPayload(prefix: string, payload: string)
    requires '_' !in prefix && '_' !in payload
    ensures Second(prefix + "_" + payload, '_') == Some(payload)
  {
    SecondOfJoin(prefix, '_', payload);
    assert prefix + "_" + payload == prefix + ['_'] + payload;
  }

  lemma IdButtonRoundTrip(prefix: string, id: int)
    requires '_' !in prefix
    ensures CallbackId(prefix + "_" + IntToString(id)) == Some(id)
  {
    var s := IntToString(id);
    assert '_' !in s by {
      forall k | 0 <= k < |s|
        ensures s[k] != '_'
      {
      }
    }
    ButtonPayload(prefix, s);
    IntRoundTrip(id);
  }

  lemma ListedDoctorIsKnown(db: Db, dep: int, doc: Doctor)
    requires doc in DoctorsByDepartment(db, dep)
    ensures GetDoctor(db, doc.id).Some?
  {
    assert doc in db.doctors;
  }

  /** Pressing a department button stores that department, and moves on exactly when it has doctors. */
  lemma PressDepartmentButton(db: Db, today: int, user: int, now: string, ss: Session, d: Department)
    ensures var o := Step(db, today, user, now, SelectDepartment, ss, Callback(DepartmentButton(d)));
      && o.session == ss.(departmentId := Some(d.id))
      && (o.state == SelectDoctor <==> |DoctorsByDepartment(db, d.id)| > 0)
      && (o.state != SelectDoctor ==> o.state == SelectDepartment)
  {
    IdButtonRoundTrip("dept", d.id);
  }

  lemma DoctorCallbackStep(db: Db, today: int, user: int, now: string, ss: Session, data: string)
    requires data != BackToDepartments && CallbackId(data).Some? && GetDoctor(db, CallbackId(data).value).Some?
    ensures Step(db, today, user, now, SelectDoctor, ss, Callback(data))
      == Outcome(SelectDate, ss.(doctorId := CallbackId(data)), db,
                 DateMenu(GetDoctor(db, CallbackId(data).value).value, DateWindow(today)))
  {
  }

  lemma DoctorButtonStep(db: Db, today: int, user: int, now: string, ss: Session, doc: Doctor)
    requires GetDoctor(db, doc.id).Some?
    ensures var o := Step(db, today, user, now, SelectDoctor, ss, Callback(DoctorButton(doc)));
      && o.state == SelectDate
      && o.session == ss.(doctorId := Some(doc.id))
      && o.reply == DateMenu(GetDoctor(db, doc.id).value, DateWindow(today))
  {
    var data := DoctorButton(doc);
    IdButtonRoundTrip("doc", doc.id);
    assert data[0] == 'd' && BackToDepartments[0] == 'b';
    DoctorCallbackStep(db, today, user, now, ss, data);
  }

  /** Pressing the button of a listed doctor stores that doctor and offers the ten dates of the window. */
  lemma PressDoctorButton(db: Db, today: int, user: int, now: string, ss: Session, dep: int, doc: Doctor)
    requires doc in DoctorsByDepartment(db, dep)
    ensures var o := Step(db, today, user, now, SelectDoctor, ss, Callback(DoctorButton(doc)));
      && o.state == SelectDate
      && o.session == ss.(doctorId := Some(doc.id))
      && o.reply == DateMenu(GetDoctor(db, doc.id).value, DateWindow(today))
      && |o.reply.days| == 10
  {
    ListedDoctorIsKnown(db, dep, doc);
    DoctorButtonStep(db, today, user, now, ss, doc);
    DateWindowShape(today);
  }

  lemma LabelHasNoUnderscore(s: Slot)
    ensures '_' !in Label(s)
  {
    var t := Label(s);
    forall k | 0 <= k < |t|
      ensures t[k] != '_'
    {
      if k < |Pad2(s.hour)| {
        assert t[k] == Pad2(s.hour)[k];
      } else if k > |Pad2(s.hour)| {
        assert t[k] == Pad2(s.minute)[k - |Pad2(s.hour)| - 1];
      }
    }
  }

  lemma TimeButtonStoresTime(db: Db, today: int, user: int, now: string, ss: Session, time: string)
    requires '_' !in time
    ensures var o := Step(db, today, user, now, SelectTime, ss, Callback(TimeButton(time)));
      o.state == EnterName && o.session == ss.(time := Some(time))
  {
    var data := TimeButton(time);
    ButtonPayload("time", time);
    assert data[0] == 't' && BackToDates[0] == 'b';
    assert data != BackToDates;
    assert Step(db, today, user, now, SelectTime, ss, Callback(data)) == HandleTime(db, today, ss, data);
  }

  /** Pressing the button of a grid time (every offered time is one, by `AvailableTimes` and
      `GridLabelMembers`) stores exactly that time and asks for the name. */
  lemma PressTimeButton(db: Db, today: int, user: int, now: string, ss: Session, slot: Slot)
    ensures var o := Step(db, today, user, now, SelectTime, ss, Callback(TimeButton(Label(slot))));
      o.state == EnterName && o.session == ss.(time := Some(Label(slot)))
  {
    LabelHasNoUnderscore(slot);
    TimeButtonStoresTime(db, today, user, now, ss, Label(slot));
  }

  lemma DateCallbackStep(db: Db, today: int, user: int, now: string, ss: Session, data: string)
    requires data != BackToDoctors
    ensures Step(db, today, user, now, SelectDate, ss, Callback(data)) == HandleDate(db, ss, data)
  {
  }

  /** Pressing a date button stores the date it carries; with a doctor chosen and readable hours,
      the times are offered exactly when some are free, and otherwise the dialogue stays at the dates. */
  lemma PressDateButton(db: Db, today: int, user: int, now: string, ss: Session, date: string)
    requires '_' !in date
    ensures var o := Step(db, today, user, now, SelectDate, ss, Callback(DateButton(date)));
      && o.session == ss.(date := Some(date))
      && o.state in {SelectDate, SelectTime}
      && (ss.doctorId.Some? && WorkingDayOf(db).Some? ==>
            var times := AvailableTimes(db, ss.doctorId.value, date).value;
            (o.state == SelectTime <==> |times| > 0)
            && (o.state == SelectTime ==> o.reply == TimeMenu(times)))
  {
    var data := DateButton(date);
    ButtonPayload("date", date);
    assert data[0] == 'd' && BackToDoctors[0] == 'b';
    DateCallbackStep(db, today, user, now, ss, data);
  }

  lemma BackFromTimes(db: Db, today: int, user: int, now: string, ss: Session)
    requires WellFormed(db, SelectTime, ss)
    ensures var o := Step(db, today, user, now, SelectTime, ss, Callback(BackToDates));
      o.state == SelectDate && o.session == ss && o.db == db
  {
    assert Step(db, today, user, now, SelectTime, ss, Callback(BackToDates)) == HandleTime(db, today, ss, BackToDates);
  }

  lemma BackFromDates(db: Db, today: int, user: int, now: string, ss: Session)
    ensures var o := Step(db, today, user, now, SelectDate, ss, Callback(BackToDoctors));
      o.state == SelectDoctor && o.session == ss && o.db == db
  {
    assert Step(db, today, user, now, SelectDate, ss, Callback(BackToDoctors)) == HandleDate(db, ss, BackToDoctors);
  }

  /** Going back from the time keyboard to the doctors and choosing another doctor keeps the
      date and the time chosen for the first doctor: the back buttons clear nothing. */
  lemma BackThenOtherDoctorKeepsDateAndTime(db: Db, today: int, user: int, now: string, ss: Session, dep: int, doc: Doctor)
    requires WellFormed(db, SelectTime, ss)
    requires doc in DoctorsByDepartment(db, dep)
    ensures var o1 := Step(db, today, user, now, SelectTime, ss, Callback(BackToDates));
      var o2 := Step(o1.db, today, user, now, o1.state, o1.session, Callback(BackToDoctors));
      var o3 := Step(o2.db, today, user, now, o2.state, o2.session, Callback(DoctorButton(doc)));
      && o1.state == SelectDate && o2.state == SelectDoctor && o3.state == SelectDate
      && o3.session.doctorId == Some(doc.id)
      && o3.session.date == ss.date && o3.session.time == ss.time
  {
    BackFromTimes(db, today, user, now, ss);
    BackFromDates(db, today, user, now, ss);
    PressDoctorButton(db, today, user, now, ss, dep, doc);
  }

  // ---------------------------------------------------------------------------
  // Many users, one store

  datatype Conversation = Conversation(state: State, session: Session)

  /** The bot process: the shared store and every user's conversation. */
  datatype Bot = Bot(db: Db, chats: map<int, Conversation>)

  /** A user without a conversation is at `End` with empty `user_data`. */
  function ChatOf(bot: Bot, user: int): Conversation {
    if user in bot.chats then bot.chats[user] else Conversation(End, EmptySession)
  }

  /** One update from one user, with the clock readings the handlers would take. */
  datatype Delivery = Delivery(user: int, input: Input, today: int, now: string)

  /** Hands the update to its user's conversation; other users are not touched. */
  function Deliver(bot: Bot, d: Delivery): (r: Bot)
    ensures forall u :: u != d.user ==> ChatOf(r, u) == ChatOf(bot, u)
    ensures r.db.doctors == bot.db.doctors && r.db.departments == bot.db.departments
    ensures |bot.db.appointments| <= |r.db.appointments| <= |bot.db.appointments| + 1
    ensures r.db.appointments[..|bot.db.appointments|] == bot.db.appointments
  {
    var c := ChatOf(bot, d.user);
    var o := Step(bot.db, d.today, d.user, d.now, c.state, c.session, d.input);
    Bot(o.db, bot.chats[d.user := Conversation(o.state, o.session)])
  }

  function RunAll(bot: Bot, ds: seq<Delivery>): Bot
    decreases |ds|
  {
    if |ds| == 0 then bot else RunAll(Deliver(bot, ds[0]), ds[1..])
  }

  /** Every appointment names a catalog doctor, a two-word name and a plausible phone. */
  predicate ValidRecords(db: Db) {
    forall k :: 0 <= k < |db.appointments| ==>
      && GetDoctor(db, db.appointments[k].doctorId).Some?
      && HasTwoWords(db.appointments[k].patientName)
      && PlausiblePhone(db.appointments[k].phone)
  }

  predicate BotWellFormed(bot: Bot) {
    && ValidRecords(bot.db)
    && forall u :: u in bot.chats ==> WellFormed(bot.db, bot.chats[u].state, bot.chats[u].session)
  }

  lemma DeliverPreservesWellFormed(bot: Bot, d: Delivery)
    requires BotWellFormed(bot)
    ensures BotWellFormed(Deliver(bot, d))
  {
    var c := ChatOf(bot, d.user);
    var o := Step(bot.db, d.today, d.user, d.now, c.state, c.session, d.input);
    var r := Deliver(bot, d);
    assert WellFormed(bot.db, c.state, c.session);
    StepPreservesWellFormed(bot.db, d.today, d.user, d.now, c.state, c.session, d.input);
    forall id
      ensures GetDoctor(r.db, id) == GetDoctor(bot.db, id)
    {
    }
    forall u | u in r.chats
      ensures WellFormed(r.db, r.chats[u].state, r.chats[u].session)
    {
      if u != d.user {
        assert r.chats[u] == bot.chats[u];
      }
    }
    var n := |bot.db.appointments|;
    if |r.db.appointments| > n {
      assert c.state == Confirm;
      ConfirmCommitsSession(bot.db, d.today, d.user, d.now, c.session, d.input.data);
    }
    forall k | 0 <= k < |r.db.appointments|
      ensures && GetDoctor(r.db, r.db.appointments[k].doctorId).Some?
              && HasTwoWords(r.db.appointments[k].patientName)
              && PlausiblePhone(r.db.appointments[k].phone)
    {
      if k < n {
        assert r.db.appointments[k] == bot.db.appointments[k];
      }
    }
  }

  /** Over any interleaving of updates from any users the invariants hold, the catalog is unchanged,
      and the store only grows at its end. */
  lemma {:induction false} RunAllInvariant(bot: Bot, ds: seq<Delivery>)
    requires BotWellFormed(bot)
    ensures BotWellFormed(RunAll(bot, ds))
    ensures RunAll(bot, ds).db.doctors == bot.db.doctors
    ensures |bot.db.appointments| <= |RunAll(bot, ds).db.appointments| <= |bot.db.appointments| + |ds|
    ensures RunAll(bot, ds).db.appointments[..|bot.db.appointments|] == bot.db.appointments
    decreases |ds|
  {
    if |ds| > 0 {
      var b1 := Deliver(bot, ds[0]);
      DeliverPreservesWellFormed(bot, ds[0]);
      RunAllInvariant(b1, ds[1..]);
      var r := RunAll(b1, ds[1..]);
      var n := |bot.db.appointments|;
      assert r.db.appointments[..n] == r.db.appointments[..|b1.db.appointments|][..n];
    }
  }

  /** A fresh bot on the default store satisfies the invariant. */
  lemma FreshBotWellFormed()
    ensures BotWellFormed(Bot(DefaultDb(), map[]))
  {
  }
}

=== FILE: calendar.dfy ===
/** Calendar days as day numbers, and the two-week window of weekdays that the
    date keyboard offers. Day 0 is 1970-01-01, a Thursday. */
module Calendar {

  /** Python's `date.weekday()`: Monday is 0 and Sunday is 6. */
  function Weekday(day: int): (w: nat)
    ensures w < 7
  {
    (day + 3) % 7
  }

  /** Monday to Friday: `date.weekday() < 5`. */
  predicate IsWorkday(day: int) {
    Weekday(day) < 5
  }

  /** The workdays among the `n` consecutive days starting at `first`, in order. */
  function Workdays(first: int, n: nat): seq<int>
    decreases n
  {
    if n == 0 then []
    else (if IsWorkday(first) then [first] else []) + Workdays(first + 1, n - 1)
  }

  /** The dates the bot offers: `today + i` for `i` in `range(1, 15)` whose weekday is below 5. */
  function DateWindow(today: int): seq<int> {
    Workdays(today + 1, 14)
  }

  predicate StrictlyAscending(s: seq<int>) {
    forall i, j :: 0 <= i < j < |s| ==> s[i] < s[j]
  }

  lemma {:induction false} WorkdaysMembers(first: int, n: nat)
    ensures forall d :: d in Workdays(first, n) <==> first <= d < first + n && IsWorkday(d)
    decreases n
  {
    if n > 0 {
      WorkdaysMembers(first + 1, n - 1);
    }
  }

  lemma {:induction false} WorkdaysAscending(first: int, n: nat)
    ensures StrictlyAscending(Workdays(first, n))
    decreases n
  {
    if n > 0 {
      WorkdaysAscending(first + 1, n - 1);
      WorkdaysMembers(first + 1, n - 1);
      var rest := Workdays(first + 1, n - 1);
      assert forall k :: 0 <= k < |rest| ==> rest[k] in rest;
    }
  }

  lemma {:induction false} WorkdaysSplit(first: int, m: nat, n: nat)
    ensures Workdays(first, m + n) == Workdays(first, m) + Workdays(first + m, n)
    decreases m
  {
    if m > 0 {
      WorkdaysSplit(first + 1, m - 1, n);
      assert m + n - 1 == (m - 1) + n;
    }
  }

  lemma {:induction false} WeekdayShift(day: int, k: nat)
    ensures Weekday(day + k) == (Weekday(day) + k) % 7
  {
  }

  function WorkdayCount(day: int): nat {
    if IsWorkday(day) then 1 else 0
  }

  lemma {:induction false} WorkdaysLength(first: int, n: nat)
    ensures |Workdays(first, n + 1)| == WorkdayCount(first) + |Workdays(first + 1, n)|
  {
  }

  lemma WeekSum(first: int)
    ensures |Workdays(first, 7)| == WorkdayCount(first) + WorkdayCount(first + 1) + WorkdayCount(first + 2)
      + WorkdayCount(first + 3) + WorkdayCount(first + 4) + WorkdayCount(first + 5) + WorkdayCount(first + 6)
  {
    WorkdaysLength(first + 6, 0);
    assert |Workdays(first + 6, 1)| == WorkdayCount(first + 6);
    WorkdaysLength(first + 5, 1);
    var c5 := |Workdays(first + 5, 2)|;
    assert c5 == WorkdayCount(first + 5) + WorkdayCount(first + 6);
    WorkdaysLength(first + 4, 2);
    var c4 := |Workdays(first + 4, 3)|;
    assert c4 == WorkdayCount(first + 4) + c5;
    WorkdaysLength(first + 3, 3);
    var c3 := |Workdays(first + 3, 4)|;
    assert c3 == WorkdayCount(first + 3) + c4;
    WorkdaysLength(first + 2, 4);
    var c2 := |Workdays(first + 2, 5)|;
    assert c2 == WorkdayCount(first + 2) + c3;
    WorkdaysLength(first + 1, 5);
    var c1 := |Workdays(first + 1, 6)|;
    assert c1 == WorkdayCount(first + 1) + c2;
    WorkdaysLength(first, 6);
  }

  lemma CountAt(first: int, k: nat)
    ensures WorkdayCount(first + k) == if (Weekday(first) + k) % 7 < 5 then 1 else 0
  {
    WeekdayShift(first, k);
  }

  /** Any seven consecutive days hold exactly five workdays. */
  lemma WeekHasFiveWorkdays(first: int)
    ensures |Workdays(first, 7)| == 5
  {
    WeekSum(first);
    CountAt(first, 0);
    CountAt(first, 1);
    CountAt(first, 2);
    CountAt(first, 3);
    CountAt(first, 4);
    CountAt(first, 5);
    CountAt(first, 6);
    var w := Weekday(first);
    assert w == 0 || w == 1 || w == 2 || w == 3 || w == 4 || w == 5 || w == 6;
  }

  /** The date window always offers exactly ten workdays, ascending, all within the next fourteen days,
      and every workday of those fourteen days is among them. */
  lemma DateWindowShape(today: int)
    ensures |DateWindow(today)| == 10
    ensures StrictlyAscending(DateWindow(today))
    ensures forall d :: d in DateWindow(today) <==> today < d <= today + 14 && IsWorkday(d)
  {
    WorkdaysSplit(today + 1, 7, 7);
    WeekHasFiveWorkdays(today + 1);
    WeekHasFiveWorkdays(today + 8);
    WorkdaysAscending(today + 1, 14);
    WorkdaysMembers(today + 1, 14);
  }
}

=== FILE: database.dfy ===
/** The bot's `Database` without its JSON file: the catalog of departments and
    doctors, the working and break hours, and the append-only list of
    appointments, with the queries and the one write the dialogue uses. */
module Database {
  import opened Wrappers
  import opened Slots
  import opened Seqs
  import opened Ordering

  datatype Department = Department(id: int, name: string)

  datatype Doctor = Doctor(id: int, name: string, departmentId: int)

  /** A `{"start": "HH:MM", "end": "HH:MM"}` record of the store. */
  datatype Hours = Hours(start: string, end: string)

  /** One booking. `createdAt` is the wall-clock stamp the program writes and never reads. */
  datatype Appointment = Appointment(
    id: int,
    userId: int,
    doctorId: int,
    date: string,
    time: string,
    patientName: string,
    phone: string,
    createdAt: string)

  datatype Db = Db(
    departments: seq<Department>,
    doctors: seq<Doctor>,
    appointments: seq<Appointment>,
    workingHours: Hours,
    breakHours: Hours)

  /** The five departments of the store the program writes when it finds no database file. */
  function DefaultDepartments(): seq<Department> {
    [ Department(1, "Терапия"),
      Department(2, "Хирургия"),
      Department(3, "Неврология"),
      Department(4, "Кардиология"),
      Department(5, "Офтальмология") ]
  }

  /** The five doctors of that store, each with the id of its department. */
  function DefaultDoctors(): seq<Doctor> {
    [ Doctor(1, "Иванов И.И.", 1),
      Doctor(2, "Петрова А.С.", 1),
      Doctor(3, "Сидоров В.П.", 2),
      Doctor(4, "Козлова Е.В.", 3),
      Doctor(5, "Смирнов Д.А.", 4) ]
  }

  /** The store the program writes when it finds no database file. */
  function DefaultDb(): Db {
    Db(DefaultDepartments(), DefaultDoctors(), [], Hours("09:00", "18:00"), Hours("13:00", "14:00"))
  }

  // ---------------------------------------------------------------------------
  // Catalog lookups

  function DoctorsIn(doctors: seq<Doctor>, departmentId: int): (r: seq<Doctor>)
    ensures forall d :: d in r <==> d in doctors && d.departmentId == departmentId
    ensures forall d :: multiset(r)[d] == if d.departmentId == departmentId then multiset(doctors)[d] else 0
    ensures IsSubsequence(r, doctors)
    decreases |doctors|
  {
    if |doctors| == 0 then []
    else
      var rest := DoctorsIn(doctors[1..], departmentId);
      if doctors[0].departmentId == departmentId then
        assert doctors == [doctors[0]] + doctors[1..];
        [doctors[0]] + rest
      else
        SubsequenceOfTail(rest, doctors[1..], doctors[0]);
        assert doctors == [doctors[0]] + doctors[1..];
        rest
  }

  /** `get_doctors_by_department`: the doctors of one department, in catalog order. */
  function DoctorsByDepartment(db: Db, departmentId: int): (r: seq<Doctor>)
    ensures forall d :: d in r <==> d in db.doctors && d.departmentId == departmentId
    ensures forall d :: multiset(r)[d] == if d.departmentId == departmentId then multiset(db.doctors)[d] else 0
    ensures IsSubsequence(r, db.doctors)
  {
    DoctorsIn(db.doctors, departmentId)
  }

  /** No doctor before position `k` has this id. */
  predicate NoneBefore(doctors: seq<Doctor>, k: int, id: int) {
    forall j :: 0 <= j < k && j < |doctors| ==> doctors[j].id != id
  }

  function FirstWithId(doctors: seq<Doctor>, id: int): (r: Option<Doctor>)
    ensures r.None? <==> NoneBefore(doctors, |doctors|, id)
    ensures r.Some? ==>
      exists k :: 0 <= k < |doctors| && doctors[k] == r.value && r.value.id == id && NoneBefore(doctors, k, id)
    decreases |doctors|
  {
    if |doctors| == 0 then None
    else if doctors[0].id == id then Some(doctors[0])
    else
      var r := FirstWithId(doctors[1..], id);
      assert forall k :: 1 <= k < |doctors| ==> doctors[k] == doctors[1..][k - 1];
      if r.Some? then
        var k :| 0 <= k < |doctors[1..]| && doctors[1..][k] == r.value && r.value.id == id
          && NoneBefore(doctors[1..], k, id);
        assert doctors[k + 1] == r.value;
        assert NoneBefore(doctors, k + 1, id);
        r
      else
        r
  }

  /** `get_doctor`: the first doctor of the catalog with this id, or None. */
  function GetDoctor(db: Db, id: int): (r: Option<Doctor>)
    ensures r.None? <==> forall d :: d in db.doctors ==> d.id != id
    ensures r.Some? ==>
      exists k :: 0 <= k < |db.doctors| && db.doctors[k] == r.value && r.value.id == id && NoneBefore(db.doctors, k, id)
  {
    FirstWithId(db.doctors, id)
  }

  // ---------------------------------------------------------------------------
  // Availability

  /** The four hours `get_available_times` reads from the store. */
  datatype WorkingDay = WorkingDay(start: nat, end: nat, breakStart: nat, breakEnd: nat)

  /** `int(...split(":")[0])` of the four hour strings; None where one of them does not parse. */
  function WorkingDayOf(db: Db): (r: Option<WorkingDay>)
    ensures r.Some? <==> && LeadingHour(db.workingHours.start).Some? && LeadingHour(db.workingHours.end).Some?
                         && LeadingHour(db.breakHours.start).Some? && LeadingHour(db.breakHours.end).Some?
    ensures r.Some? ==> && Some(r.value.start) == LeadingHour(db.workingHours.start)
                        && Some(r.value.end) == LeadingHour(db.workingHours.end)
                        && Some(r.value.breakStart) == LeadingHour(db.breakHours.start)
                        && Some(r.value.breakEnd) == LeadingHour(db.breakHours.end)
  {
    match (LeadingHour(db.workingHours.start), LeadingHour(db.workingHours.end),
           LeadingHour(db.breakHours.start), LeadingHour(db.breakHours.end))
    case (Some(s), Some(e), Some(bs), Some(be)) => Some(WorkingDay(s, e, bs, be))
    case _ => None
  }

  /** `all_slots`: the labels of the working day's grid. */
  function DayLabels(w: WorkingDay): seq<string> {
    Labels(Grid(w.start, w.end, w.breakStart, w.breakEnd))
  }

  /** Some appointment holds this doctor, date and time. */
  predicate IsBooked(appointments: seq<Appointment>, doctorId: int, date: string, time: string) {
    exists k :: 0 <= k < |appointments| && appointments[k].doctorId == doctorId
      && appointments[k].date == date && appointments[k].time == time
  }

  /** `booked_slots`: the times of the appointments for this doctor and date. */
  function BookedTimes(appointments: seq<Appointment>, doctorId: int, date: string): (r: seq<string>)
    ensures forall t :: t in r <==> IsBooked(appointments, doctorId, date, t)
    decreases |appointments|
  {
    if |appointments| == 0 then []
    else
      var a := appointments[|appointments| - 1];
      var init := appointments[..|appointments| - 1];
      assert forall k :: 0 <= k < |init| ==> init[k] == appointments[k];
      BookedTimes(init, doctorId, date)
      + (if a.doctorId == doctorId && a.date == date then [a.time] else [])
  }

  /** `[slot for slot in all_slots if slot not in booked_slots]`. */
  function Unbooked(labels: seq<string>, booked: seq<string>): (r: seq<string>)
    ensures forall t :: t in r <==> t in labels && t !in booked
    ensures IsSubsequence(r, labels)
    decreases |labels|
  {
    if |labels| == 0 then []
    else
      var rest := Unbooked(labels[1..], booked);
      assert labels == [labels[0]] + labels[1..];
      if labels[0] !in booked then
        [labels[0]] + rest
      else
        SubsequenceOfTail(rest, labels[1..], labels[0]);
        rest
  }

  /** `get_available_times`: the grid's labels minus the times booked for this doctor and date;
      None where one of the hour strings does not parse (Python raises `ValueError`). */
  function AvailableTimes(db: Db, doctorId: int, date: string): (r: Option<seq<string>>)
    ensures r.Some? <==> WorkingDayOf(db).Some?
    ensures r.Some? ==> forall t :: t in r.value <==>
      t in DayLabels(WorkingDayOf(db).value) && !IsBooked(db.appointments, doctorId, date, t)
    ensures r.Some? ==> IsSubsequence(r.value, DayLabels(WorkingDayOf(db).value))
  {
    match WorkingDayOf(db)
    case None => None
    case Some(w) => Some(Unbooked(DayLabels(w), BookedTimes(db.appointments, doctorId, date)))
  }

  // ---------------------------------------------------------------------------
  // Appointments

  /** `add_appointment`: appends one record with id `len(appointments) + 1`; no availability check. */
  function AddAppointment(db: Db, userId: int, doctorId: int, date: string, time: string,
                          patientName: string, phone: string, createdAt: string): (r: (Db, Appointment))
    ensures r.1.id == |db.appointments| + 1
    ensures && r.1.userId == userId && r.1.doctorId == doctorId && r.1.date == date && r.1.time == time
            && r.1.patientName == patientName && r.1.phone == phone && r.1.createdAt == createdAt
    ensures |r.0.appointments| == |db.appointments| + 1
    ensures r.0.appointments[..|db.appointments|] == db.appointments
    ensures r.0.appointments[|db.appointments|] == r.1
    ensures r.0.departments == db.departments && r.0.doctors == db.doctors
    ensures r.0.workingHours == db.workingHours && r.0.breakHours == db.breakHours
    ensures IsBooked(r.0.appointments, doctorId, date, time)
    ensures AvailableTimes(r.0, doctorId, date).Some? ==> time !in AvailableTimes(r.0, doctorId, date).value
  {
    var a := Appointment(|db.appointments| + 1, userId, doctorId, date, time, patientName, phone, createdAt);
    var apps := db.appointments + [a];
    assert apps[|db.appointments|] == a;
    (db.(appointments := apps), a)
  }

  /** `get_user_appointments`: the user's appointments in booking order. */
  function UserAppointments(appointments: seq<Appointment>, userId: int): (r: seq<Appointment>)
    ensures forall a :: a in r <==> a in appointments && a.userId == userId
    ensures IsSubsequence(r, appointments)
    decreases |appointments|
  {
    if |appointments| == 0 then []
    else
      var rest := UserAppointments(appointments[1..], userId);
      assert appointments == [appointments[0]] + appointments[1..];
      if appointments[0].userId == userId then
        [appointments[0]] + rest
      else
        SubsequenceOfTail(rest, appointments[1..], appointments[0]);
        rest
  }

  /** The sort key of `my_records`: `date + " " + time`. */
  function RecordKey(a: Appointment): string {
    a.date + " " + a.time
  }

  /** The list `my_records` shows: the user's appointments sorted by `RecordKey`. */
  function MyRecords(db: Db, userId: int): seq<Appointment> {
    SortBy(UserAppointments(db.appointments, userId), RecordKey)
  }

  /** No two appointments share doctor, date and time. */
  predicate NoDoubleBooking(appointments: seq<Appointment>) {
    forall i, j ::
      && 0 <= i < j < |appointments|
      && appointments[i].doctorId == appointments[j].doctorId
      && appointments[i].date == appointments[j].date
      ==> appointments[i].time != appointments[j].time
  }

  /** The ids are 1, 2, 3, ... in booking order, as `add_appointment` assigns them from an empty list. */
  predicate IdsSequential(appointments: seq<Appointment>) {
    forall k :: 0 <= k < |appointments| ==> appointments[k].id == k + 1
  }
}

=== FILE: database_facts.dfy ===
/** Properties of the store that relate several of its operations. */
module DatabaseFacts {
  import opened Wrappers
  import opened Text
  import opened Slots
  import opened Ordering
  import opened Database

  /** Removing the times of `booked + [t]` is removing those of `booked`, then `t`. */
  lemma {:induction false} UnbookedOneMore(labels: seq<string>, booked: seq<string>, t: string)
    ensures Unbooked(labels, booked + [t]) == Unbooked(Unbooked(labels, booked), [t])
    decreases |labels|
  {
    if |labels| > 0 {
      UnbookedOneMore(labels[1..], booked, t);
    }
  }

  /** A new appointment takes exactly its own time out of its doctor's free times for its date,
      and changes nothing for any other doctor or date. */
  lemma AvailableAfterAdd(db: Db, userId: int, doctorId: int, date: string, time: string,
                          patientName: string, phone: string, createdAt: string, d: int, day: string)
    requires WorkingDayOf(db).Some?
    ensures var db' := AddAppointment(db, userId, doctorId, date, time, patientName, phone, createdAt).0;
      AvailableTimes(db', d, day) == Some(
        if d == doctorId && day == date then Unbooked(AvailableTimes(db, d, day).value, [time])
        else AvailableTimes(db, d, day).value)
  {
    var r := AddAppointment(db, userId, doctorId, date, time, patientName, phone, createdAt);
    var db' := r.0;
    var apps := db'.appointments;
    assert apps == db.appointments + [r.1];
    assert apps[..|apps| - 1] == db.appointments;
    var booked := BookedTimes(db.appointments, d, day);
    assert BookedTimes(apps, d, day) == booked + (if d == doctorId && day == date then [time] else []);
    assert WorkingDayOf(db') == WorkingDayOf(db);
    var w := WorkingDayOf(db).value;
    assert AvailableTimes(db', d, day) == Some(Unbooked(DayLabels(w), BookedTimes(apps, d, day)));
    assert AvailableTimes(db, d, day) == Some(Unbooked(DayLabels(w), booked));
    if d == doctorId && day == date {
      UnbookedOneMore(DayLabels(w), booked, time);
    } else {
      assert booked + [] == booked;
    }
  }

  /** Booking a time no record holds yet (every time `AvailableTimes` offers is one) keeps the store
      free of double bookings. This is the only no-double-booking guarantee there is:
      `AddAppointment` itself does not check. */
  lemma AddFreeTimeKeepsNoDoubleBooking(db: Db, userId: int, doctorId: int, date: string, time: string,
                                        patientName: string, phone: string, createdAt: string)
    requires NoDoubleBooking(db.appointments)
    requires !IsBooked(db.appointments, doctorId, date, time)
    ensures NoDoubleBooking(AddAppointment(db, userId, doctorId, date, time, patientName, phone, createdAt).0.appointments)
  {
    var r := AddAppointment(db, userId, doctorId, date, time, patientName, phone, createdAt);
    var apps := r.0.appointments;
    var n := |db.appointments|;
    forall i, j | 0 <= i < j < |apps| && apps[i].doctorId == apps[j].doctorId && apps[i].date == apps[j].date
      ensures apps[i].time != apps[j].time
    {
      assert apps[i] == db.appointments[i];
      if j < n {
        assert apps[j] == db.appointments[j];
      } else {
        assert apps[j] == r.1;
        assert db.appointments[i].doctorId == doctorId && db.appointments[i].date == date;
      }
    }
  }

  /** Committing the same doctor, date and time twice stores both: there is no conflict error. */
  lemma RepeatedAddDoubleBooks(db: Db, u1: int, u2: int, doctorId: int, date: string, time: string,
                               n1: string, p1: string, c1: string, n2: string, p2: string, c2: string)
    ensures var db1 := AddAppointment(db, u1, doctorId, date, time, n1, p1, c1).0;
      var db2 := AddAppointment(db1, u2, doctorId, date, time, n2, p2, c2).0;
      |db2.appointments| == |db.appointments| + 2 && !NoDoubleBooking(db2.appointments)
  {
    var db1 := AddAppointment(db, u1, doctorId, date, time, n1, p1, c1).0;
    var db2 := AddAppointment(db1, u2, doctorId, date, time, n2, p2, c2).0;
    var n := |db.appointments|;
    assert db2.appointments[n] == db1.appointments[n];
    assert db2.appointments[n].time == db2.appointments[n + 1].time;
  }

  /** Appending keeps ids 1, 2, 3, ... and so keeps them unique. */
  lemma AddKeepsIdsSequential(db: Db, userId: int, doctorId: int, date: string, time: string,
                              patientName: string, phone: string, createdAt: string)
    requires IdsSequential(db.appointments)
    ensures var apps := AddAppointment(db, userId, doctorId, date, time, patientName, phone, createdAt).0.appointments;
      IdsSequential(apps) && forall i, j :: 0 <= i < j < |apps| ==> apps[i].id != apps[j].id
  {
    var apps := AddAppointment(db, userId, doctorId, date, time, patientName, phone, createdAt).0.appointments;
    forall k | 0 <= k < |apps|
      ensures apps[k].id == k + 1
    {
      if k < |db.appointments| {
        assert apps[k] == db.appointments[k];
      }
    }
  }

  lemma {:induction false} UserAppointmentsAppend(a: seq<Appointment>, b: seq<Appointment>, userId: int)
    ensures UserAppointments(a + b, userId) == UserAppointments(a, userId) + UserAppointments(b, userId)
    decreases |a|
  {
    if |a| == 0 {
      assert a + b == b;
    } else {
      UserAppointmentsAppend(a[1..], b, userId);
      assert (a + b)[1..] == a[1..] + b;
    }
  }

  /** What `add_appointment` writes is what `get_user_appointments` reads back: the booking user sees
      the new record, field for field, after all their earlier ones; nobody else's list changes. */
  lemma AddThenUserAppointments(db: Db, userId: int, doctorId: int, date: string, time: string,
                                patientName: string, phone: string, createdAt: string, u: int)
    ensures var r := AddAppointment(db, userId, doctorId, date, time, patientName, phone, createdAt);
      UserAppointments(r.0.appointments, u)
      == if u == userId then UserAppointments(db.appointments, u) + [r.1] else UserAppointments(db.appointments, u)
  {
    var r := AddAppointment(db, userId, doctorId, date, time, patientName, phone, createdAt);
    assert r.0.appointments == db.appointments + [r.1];
    UserAppointmentsAppend(db.appointments, [r.1], u);
    assert [r.1][1..] == [];
  }

  /** `my_records` lists exactly the user's appointments, in ascending `date + " " + time`,
      keeping booking order among equal keys. */
  lemma MyRecordsOrder(db: Db, userId: int)
    ensures multiset(MyRecords(db, userId)) == multiset(UserAppointments(db.appointments, userId))
    ensures SortedBy(MyRecords(db, userId), RecordKey)
    ensures forall k :: WithKey(MyRecords(db, userId), RecordKey, k) == WithKey(UserAppointments(db.appointments, userId), RecordKey, k)
  {
    SortBySorted(UserAppointments(db.appointments, userId), RecordKey);
    SortByPermutes(UserAppointments(db.appointments, userId), RecordKey);
    forall k {
      SortByStable(UserAppointments(db.appointments, userId), RecordKey, k);
    }
  }

  /** Hour strings written as grid labels read back as the hours of those slots: the store's
      `"HH:MM"` hours parse to exactly the working day they spell. */
  lemma WorkingDayOfLabels(db: Db, a: Slot, b: Slot, c: Slot, d: Slot)
    requires db.workingHours == Hours(Label(a), Label(b)) && db.breakHours == Hours(Label(c), Label(d))
    ensures WorkingDayOf(db) == Some(WorkingDay(a.hour, b.hour, c.hour, d.hour))
  {
    LeadingHourOfLabel(a);
    LeadingHourOfLabel(b);
    LeadingHourOfLabel(c);
    LeadingHourOfLabel(d);
  }

  /** The default store parses to the 09-18 day with the 13-14 break. */
  lemma DefaultWorkingDay()
    ensures WorkingDayOf(DefaultDb()) == Some(WorkingDay(9, 18, 13, 14))
  {
    assert Pad2(9) == "09" && Pad2(18) == "18" && Pad2(13) == "13" && Pad2(14) == "14" && Pad2(0) == "00";
    assert Label(Slot(9, 0)) == "09:00" && Label(Slot(18, 0)) == "18:00";
    assert Label(Slot(13, 0)) == "13:00" && Label(Slot(14, 0)) == "14:00";
    WorkingDayOfLabels(DefaultDb(), Slot(9, 0), Slot(18, 0), Slot(13, 0), Slot(14, 0));
  }

  /** In the default store every doctor has all sixteen slots free on every date,
      and 13:00 and 13:30 are never offered. */
  lemma DefaultStore(doctorId: int, date: string)
    ensures AvailableTimes(DefaultDb(), doctorId, date).Some?
    ensures |AvailableTimes(DefaultDb(), doctorId, date).value| == 16
    ensures "13:00" !in AvailableTimes(DefaultDb(), doctorId, date).value
    ensures "13:30" !in AvailableTimes(DefaultDb(), doctorId, date).value
  {
    DefaultWorkingDay();
    DefaultGrid();
    var labels := DayLabels(WorkingDay(9, 18, 13, 14));
    assert BookedTimes([], doctorId, date) == [];
    UnbookedNothing(labels);
    assert AvailableTimes(DefaultDb(), doctorId, date) == Some(Unbooked(labels, []));
  }

  /** The ophthalmology department (id 5) of the default catalog has no doctors. */
  lemma DefaultDepartmentWithoutDoctors()
    ensures DoctorsByDepartment(DefaultDb(), 5) == []
  {
    var docs := DefaultDoctors();
    assert forall k :: 0 <= k < |docs| ==> docs[k].departmentId != 5;
    NoDoctorsIn(docs, 5);
  }

  /** A department no catalog doctor names has no doctors. */
  lemma NoDoctorsIn(doctors: seq<Doctor>, departmentId: int)
    requires forall k :: 0 <= k < |doctors| ==> doctors[k].departmentId != departmentId
    ensures DoctorsIn(doctors, departmentId) == []
  {
  }

  lemma {:induction false} UnbookedNothing(labels: seq<string>)
    ensures Unbooked(labels, []) == labels
    decreases |labels|
  {
    if |labels| > 0 {
      UnbookedNothing(labels[1..]);
      assert labels == [labels[0]] + labels[1..];
    }
  }

  lemma {:induction false} UnbookedAbsent(labels: seq<string>, t: string)
    requires t !in labels
    ensures Unbooked(labels, [t]) == labels
    decreases |labels|
  {
    if |labels| > 0 {
      UnbookedAbsent(labels[1..], t);
      assert labels == [labels[0]] + labels[1..];
    }
  }

  /** Taking one listed time out of a list without repeats shortens it by exactly one. */
  lemma {:induction false} RemoveOnce(labels: seq<string>, t: string)
    requires Distinct(labels) && t in labels
    ensures |Unbooked(labels, [t])| == |labels| - 1
    decreases |labels|
  {
    var rest := labels[1..];
    if labels[0] == t {
      forall j | 0 <= j < |rest|
        ensures rest[j] != t
      {
        assert rest[j] == labels[j + 1];
      }
      UnbookedAbsent(rest, t);
    } else {
      assert t in rest by {
        var j :| 0 <= j < |labels| && labels[j] == t;
        assert rest[j - 1] == t;
      }
      RemoveOnce(rest, t);
    }
  }

  /** With no appointments every grid label is free. */
  lemma DefaultAllFree(doctorId: int, date: string)
    ensures AvailableTimes(DefaultDb(), doctorId, date) == Some(DayLabels(WorkingDay(9, 18, 13, 14)))
  {
    DefaultWorkingDay();
    assert BookedTimes([], doctorId, date) == [];
    UnbookedNothing(DayLabels(WorkingDay(9, 18, 13, 14)));
  }

  lemma TenOClockOnDefaultGrid()
    ensures "10:00" in DayLabels(WorkingDay(9, 18, 13, 14))
  {
    assert Pad2(10) == "10" && Pad2(0) == "00";
    assert Label(Slot(10, 0)) == "10:00";
    GridLabelMembers(9, 18, 13, 14, "10:00");
    assert OnGrid(Slot(10, 0), 9, 18, 13, 14);
  }

  /** Booking doctor 2 at 10:00 on 2024-06-03 on the default store: the record
      gets id 1 and takes 10:00 out of that day's sixteen free times. */
  lemma BookingScenarioFirst()
    ensures var r1 := AddAppointment(DefaultDb(), 100, 2, "2024-06-03", "10:00", "Ivanov Ivan", "+79161234567", "t1");
      && r1.1.id == 1
      && AvailableTimes(DefaultDb(), 2, "2024-06-03").Some?
      && "10:00" in AvailableTimes(DefaultDb(), 2, "2024-06-03").value
      && AvailableTimes(r1.0, 2, "2024-06-03").Some?
      && "10:00" !in AvailableTimes(r1.0, 2, "2024-06-03").value
      && |AvailableTimes(r1.0, 2, "2024-06-03").value| == 15
  {
    var labels := DayLabels(WorkingDay(9, 18, 13, 14));
    var db0 := DefaultDb();
    var r1 := AddAppointment(db0, 100, 2, "2024-06-03", "10:00", "Ivanov Ivan", "+79161234567", "t1");
    DefaultAllFree(2, "2024-06-03");
    assert AvailableTimes(db0, 2, "2024-06-03") == Some(labels);
    AvailableAfterAdd(db0, 100, 2, "2024-06-03", "10:00", "Ivanov Ivan", "+79161234567", "t1", 2, "2024-06-03");
    var after := Unbooked(labels, ["10:00"]);
    assert AvailableTimes(r1.0, 2, "2024-06-03") == Some(after);
    DefaultGrid();
    assert |labels| == 16;
    TenOClockOnDefaultGrid();
    GridLabelsDistinct(9, 18, 13, 14);
    RemoveOnce(labels, "10:00");
    assert |after| == 15;
    assert "10:00" !in after;
  }

  /** Booking doctor 2 at 10:00 on 2024-06-03 again, for another user: accepted as id 2
      and leaves two appointments on one slot. */
  lemma BookingScenarioSecond()
    ensures var r1 := AddAppointment(DefaultDb(), 100, 2, "2024-06-03", "10:00", "Ivanov Ivan", "+79161234567", "t1");
      var r2 := AddAppointment(r1.0, 200, 2, "2024-06-03", "10:00", "Petrov Petr", "+79160000000", "t2");
      r2.1.id == 2 && !NoDoubleBooking(r2.0.appointments)
  {
    RepeatedAddDoubleBooks(DefaultDb(), 100, 200, 2, "2024-06-03", "10:00",
      "Ivanov Ivan", "+79161234567", "t1", "Petrov Petr", "+79160000000", "t2");
  }
}

=== FILE: ordering.dfy ===
/** Python's ordering of strings (code point by code point, a proper prefix
    first) and the stable sort `sorted(xs, key=...)` built on it. */
module Ordering {

  /** Python's `a < b` on strings. */
  predicate StrLess(a: string, b: string)
    decreases |a|
  {
    if |b| == 0 then false
    else if |a| == 0 then true
    else if a[0] != b[0] then a[0] < b[0]
    else StrLess(a[1..], b[1..])
  }

  /** Python's `a <= b` on strings. */
  predicate StrLessEq(a: string, b: string) {
    !StrLess(b, a)
  }

  lemma {:induction false} StrLessIrreflexive(a: string)
    ensures !StrLess(a, a)
    decreases |a|
  {
    if |a| > 0 {
      StrLessIrreflexive(a[1..]);
    }
  }

  lemma {:induction false} StrLessTransitive(a: string, b: string, c: string)
    requires StrLess(a, b) && StrLess(b, c)
    ensures StrLess(a, c)
    decreases |a|
  {
    if |a| > 0 && a[0] == b[0] && b[0] == c[0] {
      StrLessTransitive(a[1..], b[1..], c[1..]);
    }
  }

  /** Any two different strings are ordered one way or the other. */
  lemma {:induction false} StrLessTotal(a: string, b: string)
    ensures StrLess(a, b) || a == b || StrLess(b, a)
    decreases |a|
  {
    if |a| > 0 && |b| > 0 && a[0] == b[0] {
      StrLessTotal(a[1..], b[1..]);
      if a[1..] == b[1..] {
        assert a == [a[0]] + a[1..] && b == [b[0]] + b[1..];
      }
    }
  }

  predicate SortedBy<T>(s: seq<T>, key: T -> string) {
    forall i, j :: 0 <= i < j < |s| ==> StrLessEq(key(s[i]), key(s[j]))
  }

  /** Puts `x` into the sorted `s` after every element whose key is not greater than its key. */
  function Insert<T>(x: T, s: seq<T>, key: T -> string): (r: seq<T>)
    decreases |s|
  {
    if |s| == 0 then [x]
    else if StrLess(key(x), key(s[0])) then [x] + s
    else [s[0]] + Insert(x, s[1..], key)
  }

  /** Python's `sorted(s, key=key)`: insertion sort, stable because an element is
      inserted behind the ones with equal keys that precede it. */
  function SortBy<T>(s: seq<T>, key: T -> string): seq<T>
    decreases |s|
  {
    if |s| == 0 then [] else Insert(s[|s| - 1], SortBy(s[..|s| - 1], key), key)
  }

  lemma {:induction false} InsertPermutes<T>(x: T, s: seq<T>, key: T -> string)
    ensures multiset(Insert(x, s, key)) == multiset(s) + multiset{x}
    decreases |s|
  {
    if |s| > 0 && !StrLess(key(x), key(s[0])) {
      InsertPermutes(x, s[1..], key);
      assert s == [s[0]] + s[1..];
    }
  }

  lemma {:induction false} InsertSorted<T>(x: T, s: seq<T>, key: T -> string)
    requires SortedBy(s, key)
    ensures SortedBy(Insert(x, s, key), key)
    decreases |s|
  {
    var r := Insert(x, s, key);
    if |s| == 0 {
    } else if StrLess(key(x), key(s[0])) {
      forall j | 0 < j < |r|
        ensures StrLessEq(key(r[0]), key(r[j]))
      {
        assert r[j] == s[j - 1];
        StrLessIrreflexive(key(s[0]));
        assert StrLessEq(key(s[0]), key(s[j - 1]));
        if StrLess(key(s[j - 1]), key(x)) {
          StrLessTransitive(key(s[j - 1]), key(x), key(s[0]));
        }
      }
    } else {
      var t := s[1..];
      assert SortedBy(t, key);
      InsertSorted(x, t, key);
      InsertPermutes(x, t, key);
      var r' := Insert(x, t, key);
      assert r == [s[0]] + r';
      forall j | 0 < j < |r|
        ensures StrLessEq(key(s[0]), key(r[j]))
      {
        assert r[j] == r'[j - 1];
        assert r'[j - 1] in multiset(t) + multiset{x} by {
          assert r'[j - 1] in multiset(r');
        }
        if r'[j - 1] == x {
        } else {
          assert r'[j - 1] in t;
        }
      }
    }
  }

  /** `sorted` returns its input in key order. */
  lemma {:induction false} SortBySorted<T>(s: seq<T>, key: T -> string)
    ensures SortedBy(SortBy(s, key), key)
    decreases |s|
  {
    if |s| > 0 {
      SortBySorted(s[..|s| - 1], key);
      InsertSorted(s[|s| - 1], SortBy(s[..|s| - 1], key), key);
    }
  }

  /** `sorted` returns a rearrangement of its input. */
  lemma {:induction false} SortByPermutes<T>(s: seq<T>, key: T -> string)
    ensures multiset(SortBy(s, key)) == multiset(s)
    decreases |s|
  {
    if |s| > 0 {
      var init := s[..|s| - 1];
      SortByPermutes(init, key);
      InsertPermutes(s[|s| - 1], SortBy(init, key), key);
      assert s == init + [s[|s| - 1]];
    }
  }

  function WithKey<T>(s: seq<T>, key: T -> string, k: string): seq<T>
    decreases |s|
  {
    if |s| == 0 then [] else (if key(s[0]) == k then [s[0]] else []) + WithKey(s[1..], key, k)
  }

  lemma {:induction false} WithKeyAppend<T>(a: seq<T>, b: seq<T>, key: T -> string, k: string)
    ensures WithKey(a + b, key, k) == WithKey(a, key, k) + WithKey(b, key, k)
    decreases |a|
  {
    if |a| > 0 {
      WithKeyAppend(a[1..], b, key, k);
      assert (a + b)[1..] == a[1..] + b;
    } else {
      assert a + b == b;
    }
  }

  lemma {:induction false} WithKeyNone<T>(s: seq<T>, key: T -> string, k: string)
    requires forall i :: 0 <= i < |s| ==> StrLess(k, key(s[i]))
    ensures WithKey(s, key, k) == []
    decreases |s|
  {
    if |s| > 0 {
      StrLessIrreflexive(k);
      WithKeyNone(s[1..], key, k);
    }
  }

  /** In a sorted sequence, a key below the first key is below every key. */
  lemma BelowFirstBelowAll<T>(x: T, s: seq<T>, key: T -> string)
    requires SortedBy(s, key)
    requires |s| > 0 && StrLess(key(x), key(s[0]))
    ensures forall i :: 0 <= i < |s| ==> StrLess(key(x), key(s[i]))
  {
    forall i | 0 < i < |s|
      ensures StrLess(key(x), key(s[i]))
    {
      StrLessTotal(key(s[0]), key(s[i]));
      if StrLess(key(s[0]), key(s[i])) {
        StrLessTransitive(key(x), key(s[0]), key(s[i]));
      }
    }
  }

  lemma {:induction false} InsertWithKey<T>(x: T, s: seq<T>, key: T -> string, k: string)
    requires SortedBy(s, key)
    ensures WithKey(Insert(x, s, key), key, k)
         == if key(x) == k then WithKey(s, key, k) + [x] else WithKey(s, key, k)
    decreases |s|
  {
    if |s| == 0 {
    } else if StrLess(key(x), key(s[0])) {
      if key(x) == k {
        BelowFirstBelowAll(x, s, key);
        WithKeyNone(s, key, k);
      }
    } else {
      assert SortedBy(s[1..], key);
      InsertWithKey(x, s[1..], key, k);
    }
  }

  /** Inserting into the sorted order of `s` adds `x` behind the elements of `s` that share its key. */
  lemma InsertIntoSortedWithKey<T>(x: T, s: seq<T>, key: T -> string, k: string)
    ensures WithKey(Insert(x, SortBy(s, key), key), key, k)
         == if key(x) == k then WithKey(SortBy(s, key), key, k) + [x] else WithKey(SortBy(s, key), key, k)
  {
    SortBySorted(s, key);
    InsertWithKey(x, SortBy(s, key), key, k);
  }

  /** `sorted` is stable: the elements sharing one key keep their original relative order. */
  lemma {:induction false} SortByStable<T>(s: seq<T>, key: T -> string, k: string)
    ensures WithKey(SortBy(s, key), key, k) == WithKey(s, key, k)
    decreases |s|
  {
    if |s| > 0 {
      var init := s[..|s| - 1];
      var last := s[|s| - 1];
      SortByStable(init, key, k);
      InsertIntoSortedWithKey(last, init, key, k);
      assert s == init + [last];
      WithKeyAppend(init, [last], key, k);
    }
  }
}

=== FILE: seqs.dfy ===
/** Order-preserving selection from a sequence. */
module Seqs {

  /** `a` is `b` with some elements left out, the rest kept in order. */
  predicate IsSubsequence<T(==)>(a: seq<T>, b: seq<T>)
    decreases |b|
  {
    if |a| == 0 then true
    else if |b| == 0 then false
    else if a[0] == b[0] then IsSubsequence(a[1..], b[1..])
    else IsSubsequence(a, b[1..])
  }

  lemma {:induction false} SubsequenceOfTail<T>(a: seq<T>, b: seq<T>, x: T)
    requires IsSubsequence(a, b)
    ensures IsSubsequence(a, [x] + b)
    decreases |b|, 1
  {
    var xb := [x] + b;
    assert xb[1..] == b;
    if |a| > 0 && a[0] == x {
      assert |b| > 0;
      if a[0] == b[0] {
        SubsequenceOfTail(a[1..], b[1..], b[0]);
        assert [b[0]] + b[1..] == b;
      } else {
        SubsequenceDropHead(a, b);
      }
    }
  }

  lemma {:induction false} SubsequenceDropHead<T>(a: seq<T>, b: seq<T>)
    requires |a| > 0 && IsSubsequence(a, b)
    ensures IsSubsequence(a[1..], b)
    decreases |b|, 0
  {
    assert |b| > 0;
    if a[0] == b[0] {
      SubsequenceOfTail(a[1..], b[1..], b[0]);
      assert [b[0]] + b[1..] == b;
    } else {
      SubsequenceDropHead(a, b[1..]);
      SubsequenceOfTail(a[1..], b[1..], b[0]);
      assert [b[0]] + b[1..] == b;
    }
  }
}

=== FILE: slots.dfy ===
/** The half-hour slot grid of a working day, and the "HH:MM" labels the bot
    shows, stores and compares. */
module Slots {
  import opened Wrappers
  import opened Text

  /** A time of day on the grid. */
  datatype Slot = Slot(hour: nat, minute: nat)

  /** `f"{hour:02d}:{minute:02d}"`. */
  function Label(s: Slot): string {
    Pad2(s.hour) + ":" + Pad2(s.minute)
  }

  /** The label of every slot of `slots`, in order. */
  function Labels(slots: seq<Slot>): (r: seq<string>)
    ensures |r| == |slots|
    ensures forall i :: 0 <= i < |slots| ==> r[i] == Label(slots[i])
    decreases |slots|
  {
    if |slots| == 0 then [] else [Label(slots[0])] + Labels(slots[1..])
  }

  /** The loop of `get_available_times` that builds `all_slots`: for every hour in
      `range(start, end)` outside `[breakStart, breakEnd)`, the `:00` slot then the `:30` slot. */
  function Grid(start: nat, end: nat, breakStart: nat, breakEnd: nat): seq<Slot>
    decreases end - start
  {
    if end <= start then []
    else
      (if breakStart <= start < breakEnd then [] else [Slot(start, 0), Slot(start, 30)])
      + Grid(start + 1, end, breakStart, breakEnd)
  }

  /** Minutes since midnight. */
  function Minutes(s: Slot): nat {
    s.hour * 60 + s.minute
  }

  /** A slot belongs to the working day: an open hour, on the hour or at half past. */
  predicate OnGrid(s: Slot, start: nat, end: nat, breakStart: nat, breakEnd: nat) {
    && start <= s.hour < end
    && !(breakStart <= s.hour < breakEnd)
    && (s.minute == 0 || s.minute == 30)
  }

  predicate Ascending(slots: seq<Slot>) {
    forall i, j :: 0 <= i < j < |slots| ==> Minutes(slots[i]) < Minutes(slots[j])
  }

  /** The grid holds exactly the slots of the working day. */
  lemma {:induction false} GridMembers(start: nat, end: nat, breakStart: nat, breakEnd: nat)
    ensures forall s :: s in Grid(start, end, breakStart, breakEnd) <==> OnGrid(s, start, end, breakStart, breakEnd)
    decreases end - start
  {
    if start < end {
      GridMembers(start + 1, end, breakStart, breakEnd);
    }
  }

  /** The grid lists its slots in ascending time order. */
  lemma {:induction false} GridAscending(start: nat, end: nat, breakStart: nat, breakEnd: nat)
    ensures Ascending(Grid(start, end, breakStart, breakEnd))
    decreases end - start
  {
    if start < end {
      var rest := Grid(start + 1, end, breakStart, breakEnd);
      GridAscending(start + 1, end, breakStart, breakEnd);
      GridMembers(start + 1, end, breakStart, breakEnd);
      assert forall k :: 0 <= k < |rest| ==> rest[k] in rest;
    }
  }

  /** The hour the program reads back from an "HH:MM" string: `int(t.split(":")[0])`. */
  function LeadingHour(t: string): Option<nat> {
    ParseNat(Head(t, ':'))
  }


  lemma DigitsHaveNoColon(s: string)
    requires AllDigits(s)
    ensures ':' !in s
  {
  }

  /** Reading the hour of a label gives back the slot's hour. */
  lemma LeadingHourOfLabel(s: Slot)
    ensures LeadingHour(Label(s)) == Some(s.hour)
  {
    DigitsHaveNoColon(Pad2(s.hour));
    HeadOfJoin(Pad2(s.hour), ':', Pad2(s.minute));
    Pad2RoundTrip(s.hour);
  }

  /** Different slots have different labels. */
  lemma LabelInjective(a: Slot, b: Slot)
    requires Label(a) == Label(b)
    ensures a == b
  {
    DigitsHaveNoColon(Pad2(a.hour));
    DigitsHaveNoColon(Pad2(a.minute));
    DigitsHaveNoColon(Pad2(b.hour));
    DigitsHaveNoColon(Pad2(b.minute));
    HeadOfJoin(Pad2(a.hour), ':', Pad2(a.minute));
    HeadOfJoin(Pad2(b.hour), ':', Pad2(b.minute));
    SecondOfJoin(Pad2(a.hour), ':', Pad2(a.minute));
    SecondOfJoin(Pad2(b.hour), ':', Pad2(b.minute));
    Pad2RoundTrip(a.hour);
    Pad2RoundTrip(b.hour);
    Pad2RoundTrip(a.minute);
    Pad2RoundTrip(b.minute);
  }

  /** No element occurs twice. */
  predicate Distinct(s: seq<string>) {
    forall i, j :: 0 <= i < j < |s| ==> s[i] != s[j]
  }

  /** No label occurs twice in the grid. */
  lemma GridLabelsDistinct(start: nat, end: nat, breakStart: nat, breakEnd: nat)
    ensures Distinct(Labels(Grid(start, end, breakStart, breakEnd)))
  {
    var g := Grid(start, end, breakStart, breakEnd);
    GridAscending(start, end, breakStart, breakEnd);
    forall i, j | 0 <= i < j < |g|
      ensures Label(g[i]) != Label(g[j])
    {
      if Label(g[i]) == Label(g[j]) {
        LabelInjective(g[i], g[j]);
      }
    }
  }

  lemma LabelsMembers(slots: seq<Slot>, t: string)
    ensures t in Labels(slots) <==> exists s :: s in slots && Label(s) == t
  {
    var r := Labels(slots);
    if t in r {
      var i :| 0 <= i < |r| && r[i] == t;
      assert slots[i] in slots;
    }
    if exists s :: s in slots && Label(s) == t {
      var s :| s in slots && Label(s) == t;
      var i :| 0 <= i < |slots| && slots[i] == s;
      assert r[i] == t;
    }
  }

  /** A label occurs in the grid's labels exactly when it is the label of a working-day slot. */
  lemma GridLabelMembers(start: nat, end: nat, breakStart: nat, breakEnd: nat, t: string)
    ensures t in Labels(Grid(start, end, breakStart, breakEnd)) <==>
      exists s :: OnGrid(s, start, end, breakStart, breakEnd) && Label(s) == t
  {
    GridMembers(start, end, breakStart, breakEnd);
    LabelsMembers(Grid(start, end, breakStart, breakEnd), t);
  }

  lemma DefaultGridSlots()
    ensures Grid(9, 18, 13, 14) == [
      Slot(9, 0), Slot(9, 30), Slot(10, 0), Slot(10, 30), Slot(11, 0), Slot(11, 30), Slot(12, 0), Slot(12, 30),
      Slot(14, 0), Slot(14, 30), Slot(15, 0), Slot(15, 30), Slot(16, 0), Slot(16, 30), Slot(17, 0), Slot(17, 30)]
  {
  }

  /** No label of the grid reads back as an hour of the break. */
  lemma GridLabelNotInBreak(start: nat, end: nat, breakStart: nat, breakEnd: nat, h: nat, t: string)
    requires breakStart <= h < breakEnd
    requires t in Labels(Grid(start, end, breakStart, breakEnd))
    ensures LeadingHour(t) != Some(h)
  {
    GridLabelMembers(start, end, breakStart, breakEnd, t);
    var s :| OnGrid(s, start, end, breakStart, breakEnd) && Label(s) == t;
    LeadingHourOfLabel(s);
  }

  lemma NoLabelInBreak(start: nat, end: nat, breakStart: nat, breakEnd: nat, h: nat)
    requires breakStart <= h < breakEnd
    ensures forall t :: t in Labels(Grid(start, end, breakStart, breakEnd)) ==> LeadingHour(t) != Some(h)
  {
    forall t | t in Labels(Grid(start, end, breakStart, breakEnd))
      ensures LeadingHour(t) != Some(h)
    {
      GridLabelNotInBreak(start, end, breakStart, breakEnd, h, t);
    }
  }

  lemma BreakLabelsReadAs13()
    ensures LeadingHour("13:00") == Some(13) && LeadingHour("13:30") == Some(13)
  {
    assert Label(Slot(13, 0)) == "13:00";
    assert Label(Slot(13, 30)) == "13:30";
    LeadingHourOfLabel(Slot(13, 0));
    LeadingHourOfLabel(Slot(13, 30));
  }

  /** With the default hours 09:00-18:00 and the 13:00-14:00 break the day has sixteen slots,
      and neither 13:00 nor 13:30 is among them. */
  lemma DefaultGrid()
    ensures |Labels(Grid(9, 18, 13, 14))| == 16
    ensures "13:00" !in Labels(Grid(9, 18, 13, 14))
    ensures "13:30" !in Labels(Grid(9, 18, 13, 14))
  {
    DefaultGridSlots();
    BreakLabelsReadAs13();
    NoLabelInBreak(9, 18, 13, 14, 13);
  }
}

=== FILE: text.dfy ===
/** The handful of Python string operations the bot relies on, restricted to
    ASCII: `str(n)`, `f"{n:02d}"`, `int(s)`, `s.split(c)[0]`, `s.split(c)[1]`,
    `s.split()`, `s.replace(c, "")` and `s.isdigit()`. */
module Text {
  import opened Wrappers

  predicate IsDigit(c: char) {
    '0' <= c <= '9'
  }

  predicate AllDigits(s: string) {
    forall i :: 0 <= i < |s| ==> IsDigit(s[i])
  }

  function DigitChar(d: nat): (c: char)
    requires d < 10
    ensures IsDigit(c)
  {
    (('0' as int) + d) as char
  }

  function DigitValue(c: char): (d: nat)
    requires IsDigit(c)
    ensures d < 10 && DigitChar(d) == c
  {
    (c as int) - ('0' as int)
  }

  /** Decimal text of `n`, without leading zeros: Python's `str(n)` for n >= 0. */
  function Decimal(n: nat): (s: string)
    ensures |s| > 0 && AllDigits(s)
    ensures |s| > 1 ==> s[0] != '0'
    ensures n < 10 <==> |s| == 1
    decreases n
  {
    if n < 10 then [DigitChar(n)] else Decimal(n / 10) + [DigitChar(n % 10)]
  }

  /** Python's `f"{n:02d}"` for n >= 0: the decimal text, zero-padded to two characters. */
  function Pad2(n: nat): (s: string)
    ensures |s| >= 2 && AllDigits(s)
  {
    if n < 10 then ['0'] + Decimal(n) else Decimal(n)
  }

  /** Python's `str(i)`. */
  function IntToString(i: int): (s: string)
    ensures |s| > 0
    ensures forall k :: 0 <= k < |s| ==> s[k] == '-' || IsDigit(s[k])
  {
    if i < 0 then "-" + Decimal(-i) else Decimal(i)
  }

  /** Value of a string of decimal digits, leading zeros allowed. */
  function DigitsValue(s: string): nat
    requires AllDigits(s)
    decreases |s|
  {
    if |s| == 0 then 0 else DigitsValue(s[..|s| - 1]) * 10 + DigitValue(s[|s| - 1])
  }

  /** Python's `int(s)` on a string of ASCII digits; None where Python would raise `ValueError`. */
  function ParseNat(s: string): (r: Option<nat>)
    ensures r.Some? <==> |s| > 0 && AllDigits(s)
  {
    if |s| > 0 && AllDigits(s) then Some(DigitsValue(s)) else None
  }

  /** Python's `int(s)`: an optional sign followed by ASCII digits. */
  function ParseInt(s: string): (r: Option<int>)
    ensures r.Some? ==> |s| > 0
  {
    if |s| > 0 && s[0] == '-' then
      match ParseNat(s[1..])
      case Some(n) => Some(0 - n as int)
      case None => None
    else if |s| > 0 && s[0] == '+' then
      match ParseNat(s[1..])
      case Some(n) => Some(n)
      case None => None
    else
      match ParseNat(s)
      case Some(n) => Some(n)
      case None => None
  }

  lemma {:induction false} DecimalRoundTrip(n: nat)
    ensures ParseNat(Decimal(n)) == Some(n)
    decreases n
  {
    var s := Decimal(n);
    if n >= 10 {
      DecimalRoundTrip(n / 10);
      assert s[..|s| - 1] == Decimal(n / 10);
      assert DigitsValue(s) == DigitsValue(Decimal(n / 10)) * 10 + n % 10;
    }
  }

  lemma Pad2RoundTrip(n: nat)
    ensures ParseNat(Pad2(n)) == Some(n)
  {
    DecimalRoundTrip(n);
    if n < 10 {
      var s := Pad2(n);
      assert s == ['0', DigitChar(n)];
      assert s[..1] == ['0'];
      assert DigitsValue(['0']) == 0 by {
        assert ['0'][..0] == [];
      }
      assert DigitsValue(s) == DigitsValue(['0']) * 10 + DigitValue(DigitChar(n));
    }
  }

  /** Formatting then parsing an id gives the id back: `int(str(i)) == i`. */
  lemma IntRoundTrip(i: int)
    ensures ParseInt(IntToString(i)) == Some(i)
  {
    if i < 0 {
      DecimalRoundTrip(-i);
      assert IntToString(i)[1..] == Decimal(-i);
    } else {
      DecimalRoundTrip(i);
    }
  }

  /** Index of the first `c` in `s`, or |s| when `s` has none. */
  function IndexOf(s: string, c: char): (k: nat)
    ensures k <= |s|
    ensures k < |s| ==> s[k] == c
    ensures forall i :: 0 <= i < k ==> s[i] != c
    decreases |s|
  {
    if |s| == 0 then 0 else if s[0] == c then 0 else 1 + IndexOf(s[1..], c)
  }

  /** Python's `s.split(c)[0]`: the text before the first `c`. */
  function Head(s: string, c: char): (h: string)
    ensures c !in h && h <= s
    ensures c !in s ==> h == s
  {
    s[..IndexOf(s, c)]
  }

  /** Python's `s.split(c)[1]`: the text between the first and the second `c`;
      None where Python raises `IndexError` because `s` holds no `c`. */
  function Second(s: string, c: char): (r: Option<string>)
    ensures r.None? <==> c !in s
    ensures r.Some? ==> c !in r.value
  {
    var k := IndexOf(s, c);
    if k == |s| then None else Some(Head(s[k + 1..], c))
  }

  lemma HeadOfJoin(a: string, c: char, b: string)
    requires c !in a
    ensures Head(a + [c] + b, c) == a
  {
    var s := a + [c] + b;
    assert forall i :: 0 <= i < |a| ==> s[i] == a[i];
    assert s[|a|] == c;
  }

  /** `(prefix + c + body).split(c)[1] == body` when neither part holds a `c`. */
  lemma SecondOfJoin(a: string, c: char, b: string)
    requires c !in a && c !in b
    ensures Second(a + [c] + b, c) == Some(b)
  {
    var s := a + [c] + b;
    HeadOfJoin(a, c, b);
    assert IndexOf(s, c) == |a|;
    assert s[|a| + 1..] == b;
  }

  /** The characters Python's argument-less `split()` treats as separators (ASCII part). */
  predicate IsSpace(ch: char) {
    ch == ' ' || '\t' <= ch <= '\r' || '\U{1C}' <= ch <= '\U{1F}'
  }

  /** Length of the run of non-space characters that starts `s`. */
  function RunLength(s: string): (k: nat)
    ensures k <= |s|
    ensures forall i :: 0 <= i < k ==> !IsSpace(s[i])
    ensures k < |s| ==> IsSpace(s[k])
    decreases |s|
  {
    if |s| == 0 || IsSpace(s[0]) then 0 else 1 + RunLength(s[1..])
  }

  /** Python's `s.split()`: the maximal runs of non-space characters, in order. */
  function Words(s: string): seq<string>
    decreases |s|
  {
    if |s| == 0 then []
    else if IsSpace(s[0]) then Words(s[1..])
    else
      var k := RunLength(s);
      [s[..k]] + Words(s[k..])
  }

  /** `s[lo..hi]` holds a non-space character. */
  predicate HasWordIn(s: string, lo: int, hi: int) {
    exists i :: lo <= i < hi && 0 <= i < |s| && !IsSpace(s[i])
  }

  /** `s` holds a non-space character. */
  predicate HasWord(s: string) {
    HasWordIn(s, 0, |s|)
  }

  /** `s` has a space with a non-space character somewhere before it and another somewhere after it. */
  predicate HasTwoWords(s: string) {
    exists j :: 0 <= j < |s| && IsSpace(s[j]) && HasWordIn(s, 0, j) && HasWordIn(s, j + 1, |s|)
  }

  /** Dropping a prefix of `k` characters shifts the positions of a range by `k`. */
  lemma HasWordInDrop(s: string, k: nat, lo: int, hi: int)
    requires k <= lo <= hi <= |s|
    ensures HasWordIn(s, lo, hi) <==> HasWordIn(s[k..], lo - k, hi - k)
  {
    var t := s[k..];
    if HasWordIn(s, lo, hi) {
      var i :| lo <= i < hi && 0 <= i < |s| && !IsSpace(s[i]);
      assert t[i - k] == s[i];
    }
    if HasWordIn(t, lo - k, hi - k) {
      var i :| lo - k <= i < hi - k && 0 <= i < |t| && !IsSpace(t[i]);
      assert s[i + k] == t[i];
    }
  }

  lemma {:induction false} WordsNonEmpty(s: string)
    ensures |Words(s)| >= 1 <==> HasWord(s)
    decreases |s|
  {
    if |s| == 0 {
    } else if IsSpace(s[0]) {
      WordsNonEmpty(s[1..]);
      HasWordInDrop(s, 1, 1, |s|);
      if HasWord(s) {
        var i :| 0 <= i < |s| && 0 <= i < |s| && !IsSpace(s[i]);
        assert 1 <= i;
      }
    } else {
      assert 0 <= 0 < |s| && !IsSpace(s[0]);
    }
  }

  lemma TwoWordsDropSpace(s: string)
    requires |s| > 0 && IsSpace(s[0]) && HasTwoWords(s)
    ensures HasTwoWords(s[1..])
  {
    var t := s[1..];
    var j :| 0 <= j < |s| && IsSpace(s[j]) && HasWordIn(s, 0, j) && HasWordIn(s, j + 1, |s|);
    var i :| 0 <= i < j && 0 <= i < |s| && !IsSpace(s[i]);
    assert 1 <= i;
    assert HasWordIn(s, 1, j);
    HasWordInDrop(s, 1, 1, j);
    HasWordInDrop(s, 1, j + 1, |s|);
    assert t[j - 1] == s[j];
  }

  lemma TwoWordsAddSpace(s: string)
    requires |s| > 0 && HasTwoWords(s[1..])
    ensures HasTwoWords(s)
  {
    var t := s[1..];
    var j :| 0 <= j < |t| && IsSpace(t[j]) && HasWordIn(t, 0, j) && HasWordIn(t, j + 1, |t|);
    HasWordInDrop(s, 1, 1, j + 1);
    HasWordInDrop(s, 1, j + 2, |s|);
    var i :| 1 <= i < j + 1 && 0 <= i < |s| && !IsSpace(s[i]);
    assert HasWordIn(s, 0, j + 1);
    assert s[j + 1] == t[j];
  }

  /** Leading spaces change neither the word count nor the two-word shape. */
  lemma TwoWordsSkipSpace(s: string)
    requires |s| > 0 && IsSpace(s[0])
    ensures HasTwoWords(s) <==> HasTwoWords(s[1..])
  {
    if HasTwoWords(s) {
      TwoWordsDropSpace(s);
    }
    if HasTwoWords(s[1..]) {
      TwoWordsAddSpace(s);
    }
  }

  /** When `s` starts with a word, a second word exists exactly when the rest after that word has one. */
  lemma TwoWordsAfterRun(s: string)
    requires |s| > 0 && !IsSpace(s[0])
    ensures HasTwoWords(s) <==> HasWord(s[RunLength(s)..])
  {
    var n := RunLength(s);
    HasWordInDrop(s, n, n, |s|);
    if HasWordIn(s, n, |s|) {
      var p :| n <= p < |s| && 0 <= p < |s| && !IsSpace(s[p]);
      assert IsSpace(s[n]);
      assert HasWordIn(s, 0, n);
      assert HasWordIn(s, n + 1, |s|);
    }
    if HasTwoWords(s) {
      var j :| 0 <= j < |s| && IsSpace(s[j]) && HasWordIn(s, 0, j) && HasWordIn(s, j + 1, |s|);
      assert n <= j;
      var k :| j + 1 <= k < |s| && 0 <= k < |s| && !IsSpace(s[k]);
      assert HasWordIn(s, n, |s|);
    }
  }

  /** `len(s.split()) >= 2` holds exactly when `s` has two non-space runs separated by a space. */
  lemma {:induction false} TwoWordsIff(s: string)
    ensures |Words(s)| >= 2 <==> HasTwoWords(s)
    decreases |s|
  {
    if |s| == 0 {
    } else if IsSpace(s[0]) {
      TwoWordsIff(s[1..]);
      TwoWordsSkipSpace(s);
    } else {
      var n := RunLength(s);
      WordsNonEmpty(s[n..]);
      TwoWordsAfterRun(s);
      assert Words(s) == [s[..n]] + Words(s[n..]);
    }
  }

  /** Python's `s.replace("+", "").replace(" ", "")`. */
  function StripPlusAndSpace(s: string): (r: string)
    ensures |r| <= |s|
    ensures '+' !in r && ' ' !in r
    decreases |s|
  {
    if |s| == 0 then []
    else if s[0] == '+' || s[0] == ' ' then StripPlusAndSpace(s[1..])
    else [s[0]] + StripPlusAndSpace(s[1..])
  }

  /** Number of ASCII digits in `s`. */
  function DigitCount(s: string): nat
    decreases |s|
  {
    if |s| == 0 then 0 else (if IsDigit(s[0]) then 1 else 0) + DigitCount(s[1..])
  }

  /** Every character of `s` is a digit, `+` or a space. */
  predicate PhoneAlphabet(s: string) {
    forall i :: 0 <= i < |s| ==> IsDigit(s[i]) || s[i] == '+' || s[i] == ' '
  }

  lemma {:induction false} StripCharacterised(s: string)
    ensures AllDigits(StripPlusAndSpace(s)) <==> PhoneAlphabet(s)
    ensures PhoneAlphabet(s) ==> |StripPlusAndSpace(s)| == DigitCount(s)
    decreases |s|
  {
    if |s| > 0 {
      StripCharacterised(s[1..]);
      var r := StripPlusAndSpace(s);
      var r' := StripPlusAndSpace(s[1..]);
      if PhoneAlphabet(s) {
        assert forall i :: 0 <= i < |s[1..]| ==> s[1..][i] == s[i + 1];
      }
      if s[0] == '+' || s[0] == ' ' {
        if PhoneAlphabet(s[1..]) {
          assert forall i :: 1 <= i < |s| ==> s[i] == s[1..][i - 1];
        }
      } else {
        assert r == [s[0]] + r';
        if AllDigits(r) {
          assert r[0] == s[0];
          assert forall i :: 0 <= i < |r'| ==> r'[i] == r[i + 1];
          assert forall i :: 1 <= i < |s| ==> s[i] == s[1..][i - 1];
        }
        if PhoneAlphabet(s) {
          assert IsDigit(s[0]);
        }
      }
    }
  }
}

=== FILE: wrappers.dfy ===
/** The Some/None datatype used wherever the program returns `None` or raises
    on a missing value. */
module Wrappers {

  datatype Option<+T> = None | Some(value: T)
}
